=== FILE: README.md ===
# studio_recorder, modelled in Dafny

studio_recorder is a Go service that records lecture-studio cameras. A user starts or stops a recording on one or two cameras. It can also schedule a recording at a given start time and length, list the recordings, fetch or delete a recording's file, or move the recording to an Opencast archive. A recording is a GStreamer `gst-launch-1.0` pipeline run as a child process. The service keeps an in-memory registry from recording id to that process. A PostgreSQL table holds one row per recording.

This project models the recording core as pure functions over an explicit state:

- `RecordingService` (recordings.dfy) models the current service `RecordingService`:
  - `Start`, `Stop`, `Schedule`, `CameraRecordings`, `Move`, `Delete` and `File`;
  - what a `time.AfterFunc` timer does when it fires (`Fire`);
  - an arbitrary interleaving of calls (`Apply`, `Run`).
- `RecordService` (records.dfy) models the older service `RecordService`. It is still in the tree, but the server's `main` never constructs it. The model covers:
  - `Start`, `Stop` and `Schedule`;
  - its TCP reachability check and its own pipeline templates.
- `Planner` (planner.dfy) models the newer service's pipeline choice `recordingMode`. The argument vector is `strings.Split(…, " ")` of a template.
- `Probe` (probe.dfy) models the RTSP probe `isCameraAvailable`.
- `Opencast` (opencast.dfy) models the archive mover `Opencast.Move`. It covers:
  - the episode metadata, with its `HH:MM:SS` duration, `time.DateOnly` date and `time.TimeOnly` time;
  - the multipart form;
  - the HTTP request and how its status is judged.

  Both copies of the mover share this model. They differ only in how the configuration is loaded.
- `RecordingStorage` (storage.dfy) models the PostgreSQL store of recordings as a map of rows. Each SQL statement becomes the row change it makes.
- `Response` (response.dfy) models the JSON error responses, including how validation errors are turned into messages.
- Support modules:
  - `Errs` holds the sentinel errors, `%w` wrapping and `errors.Is`.
  - `Clock` holds calendar instants, `time.Time.Sub` with int64 saturation, and the date and time layouts.
  - `Text` holds `strings.Split`/`strings.Join` and zero-padded decimals.
  - `Effects` and `Models` hold shared types.
  - `Wrappers` holds `Option`/`Result`.

Each operation returns the new state, its result, its error and the list of side effects it attempted, in order. The side effects are: spawn, kill, database write, upload, unlink and arming a timer.

Every external call is an input to the operation:

- the camera-id lookup;
- the RTSP handshake;
- the TCP dial;
- process start and kill;
- each database driver fault;
- `os.ReadFile`, `os.Remove` and `os.Stat`;
- the HTTP round trip;
- `time.Now`;
- `uuid.New`;
- `time.ParseDuration`.

Operating-system and parse errors arrive as message strings. They are wrapped as `Failure`, so they can never be mistaken for a sentinel. A timer is an entry in the state's `pending` queue, and `Fire` runs one entry.

The model follows the code as written. Some of its behaviour is worth knowing:

- `Stop` never removes the registry entry. A second `Stop` of the same id kills again instead of failing with "record not found".
- The probe accepts a stream with no tracks at all and reports it as available without audio.
- `Schedule` accepts a start time equal to now, and any parsed duration, including zero and negative ones.
- `errs/errors.go` declares no `ErrFileNotFound`, `ErrFileAlreadyMoved` or `ErrCameraNotFound`, although the services use them. The model adds them as sentinels.
- The older service's `Stop` labels its errors with the start operation's name (`service.camera.Start`), and it wraps a failed stop-time write rather than returning `ErrWriteToDB`.
- The older service's `Start` ignores a failed start-time write.
- The older mover's configuration fields are unexported, so the configuration loader cannot fill them. Its `Move` is modelled with whatever configuration it is given.

## Model

| member | source | states |
|---|---|---|
| Errs.IsSentinelIffRoot | internal/domain/errs/errors.go:5-17 | `errors.Is` against a sentinel holds exactly when the sentinel is what the chain of `%w` wrappers ends in |
| Clock.SubSign | internal/services/recordings/recordings.go:177-182 | the delay `time.Until` gives is negative exactly when the start time is before now in calendar order, and zero exactly when the two instants are equal |
| Clock.DateOnlyRoundTrip | internal/services/recordings/opencast/opencast.go:113-115 | a start date written with the `2006-01-02` layout reads back as the instant's year, month and day, and is exactly ten characters long for years below 10000 |
| Clock.TimeOnlyRoundTrip | internal/services/recordings/opencast/opencast.go:117-119 | a start time written with the `15:04:05` layout reads back as the instant's hour, minute and second, and is exactly eight characters long |
| Clock.TruncDiv | internal/services/recordings/opencast/opencast.go:99-101 | converting to `int` truncates toward zero: what the quotient leaves over is smaller than the divisor and has the dividend's sign, and the quotient is negative only when the dividend is at most minus the divisor |
| Clock.TruncMod | internal/services/recordings/opencast/opencast.go:99-101 | Go's `%` truncates toward zero: quotient times divisor plus remainder is the dividend, and the remainder takes the dividend's sign and is smaller than the divisor |
| Text.SplitJoin | internal/services/recordings/recordings.go:362 | splitting a space-joined list of tokens that contain no space gives back exactly those tokens |
| Text.FmtTwoDigits | internal/services/recordings/opencast/opencast.go:102 | `%02d` gives exactly two digits for 0 to 99 and the plain decimal for larger numbers, and they read back as the number; a negative number gets a minus sign in front of its digits |
| Planner.RecordingMode | internal/services/recordings/recordings.go:338-363 | planning fails, with the "too many arguments" error, exactly when there are neither one nor two cameras; every plan starts with the `gst-launch-1.0` launcher |
| Planner.RecordingModeTokens | internal/services/recordings/recordings.go:338-362 | when the IPs and the path contain no spaces, the argument vector is the chosen template's token list |
| Planner.TemplateShape | internal/services/recordings/recordings.go:341-357 | each of the four templates has a fixed token count; the file path sits at a fixed position, quoted only in the templates that quote it; the two-camera video mix puts the second camera's IP in its second source |
| Planner.DualVideoShape | internal/services/recordings/recordings.go:355-356 | the two-camera video mix has 39 tokens, with the first camera's IP, the second camera's IP and the output path at fixed positions |
| Planner.ChoiceIgnoresSecondCamera | internal/services/recordings/recordings.go:340-357 | with two cameras, the second camera's audio flag never changes the plan; when the first camera has audio, the second camera does not matter at all |
| Probe.AudioFound | internal/services/recordings/recordings.go:384-395 | the probe reports audio exactly when some track of the stream is one of the six audio codecs |
| Probe.IsCameraAvailable | internal/services/recordings/recordings.go:365-396 | the probe succeeds exactly when the URL parses, the session starts and the stream is described; each failing step's error is returned unchanged |
| Opencast.FormatDurationRoundTrip | internal/services/recordings/opencast/opencast.go:98-102 | for a non-negative duration, the `HH:MM:SS` text reads back as hours, minutes below 60 and seconds below 60 that add up to the duration's whole seconds; below 100 hours it is exactly eight characters long |
| Opencast.EpisodeDateReadsBack | internal/services/recordings/opencast/opencast.go:104-130 | the episode's `startDate` field reads back as the recording's start date, in ten characters for years below 10000 |
| Opencast.EpisodeTimeReadsBack | internal/services/recordings/opencast/opencast.go:116-119 | the episode's `startTime` field reads back as the recording's start time of day, in eight characters |
| Opencast.EpisodeFields | internal/services/recordings/opencast/opencast.go:104-130 | the metadata is one `dublincore/episode` catalog whose five fields are title, startDate, startTime, duration and location, in that order, with the camera address as both title and location |
| Opencast.EpisodeDurationReadsBack | internal/services/recordings/opencast/opencast.go:98-123 | for a recording stopped no earlier than it started, the episode's `duration` field reads back as the whole seconds between start and stop, in eight characters below 100 hours |
| Opencast.CreateForm | internal/services/recordings/opencast/opencast.go:171-198 | building the form fails exactly when the writer faults; otherwise it has one part per data entry, carrying that entry's bytes, and only `presenter` is a file part |
| Opencast.UploadFormParts | internal/services/recordings/opencast/opencast.go:137-142 | the upload form has exactly the parts `presenter`, `metadata`, `acl` and `processing`: the video as a file named after its extension, the episode metadata, and the configured ACL and processing bytes |
| Opencast.FormParts | internal/services/records/opencast/opencast.go:102-107 | for any metadata and video, the form built from the mover's data map holds exactly the four parts, each with the bytes the map gives it |
| Opencast.Move | internal/services/recordings/opencast/opencast.go:90-169 | a failed read returns its error before the path is examined; the move succeeds exactly when the file is read, the form and request are built, the request is sent and the reply is 200 or 201; a request is sent only after every earlier step succeeded, as a POST to `<address>/api/events` with the configured credentials and the upload form; read and send errors stay visible through `%w` |
| RecordingStorage.Start | internal/storage/postgres/recordings/recording.go:25-37 | the insert succeeds exactly when there is no driver fault and no row already has the id, and then adds an unmoved row with no stop time; a failure leaves the table as it was |
| RecordingStorage.Stop | internal/storage/postgres/recordings/recording.go:39-59 | the update succeeds exactly when the row exists; it sets only that row's stop time; with no row affected it reports "record not found" |
| RecordingStorage.Move | internal/storage/postgres/recordings/recording.go:61-81 | the update succeeds exactly when the row exists; it sets only that row's moved flag; with no row affected it reports "record not found" |
| RecordingStorage.Delete | internal/storage/postgres/recordings/recording.go:83-103 | the delete succeeds exactly when the row exists; it removes only that row and leaves every other row as it was |
| RecordingStorage.Recording | internal/storage/postgres/recordings/recording.go:105-134 | a lookup succeeds exactly when the row exists and its camera joins; the result carries the row's fields and the camera's IP, with the zero time when no stop time is set; a missing row is "record not found" |
| RecordingStorage.CameraRecordings | internal/storage/postgres/recordings/recording.go:136-175 | a page is returned exactly when the limit and offset are non-negative and there is no driver fault; its length is the SQL `LIMIT`/`OFFSET` window of the rows for that camera and user, and it holds those rows without repeats |
| RecordingStorage.StartThenRecording | internal/storage/postgres/recordings/recording.go:25-37 | a row just inserted reads back as the saved recording joined with its camera's address, with the zero stop time and not moved |
| RecordingStorage.StopThenRecording | internal/storage/postgres/recordings/recording.go:39-59 | after a stop write, the recording reads back with that stop time and otherwise unchanged |
| RecordingStorage.MovedIsMonotone | internal/storage/postgres/recordings/recording.go:61-81 | no insert, stop or move ever clears a row's moved flag; only a delete can remove a moved row |
| RecordingService.LookupAll | internal/services/recordings/recordings.go:76-85 | camera lookup succeeds exactly when every id resolves, giving the IPs in order; a failure returns the error of an id that did not resolve |
| RecordingService.ProbeAll | internal/services/recordings/recordings.go:87-95 | probing succeeds exactly when every camera's probe succeeds, giving each IP with its audio flag in order |
| RecordingService.Prepare | internal/services/recordings/recordings.go:76-112 | a start plan exists exactly when every lookup and probe succeeded and there are at most two cameras; a failed probe is reported as `ErrCameraIsNotAvailable`; the plan is the pipeline for each camera's address and probed audio flag, in order, writing to `<videos>/<first camera id>/<id>_<stamp>.mkv` |
| RecordingService.Launch | internal/services/recordings/recordings.go:114-129 | a failed spawn registers nothing; a successful spawn registers the process under the new id and then writes the start row; a failed write returns the id with `ErrWriteToDB` and leaves the process registered |
| RecordingService.Start | internal/services/recordings/recordings.go:66-130 | a failed lookup, probe, camera count or spawn leaves no trace; a spawned process stays registered even when its row is not written; the only file that appears is the pipeline's output file; on success the new row holds the user, the first camera, the start time and the path under that camera's directory |
| RecordingService.StartSpawnsThePlan | internal/services/recordings/recordings.go:87-121 | a successful spawn runs, and registers, exactly the planner's pipeline for the probed cameras; that pipeline writes to the path the start row stores, and the file is then on disk |
| RecordingService.StartedRecordingIsServed | internal/services/recordings/recordings.go:105-129 | when every step of a start succeeds, the start returns no error, and a download of the new id with no read or stat fault returns the path the pipeline writes to |
| RecordingService.Stop | internal/services/recordings/recordings.go:132-164 | an unknown id is "record not found" with no effects; a failed kill is reported wrapped, with no write; otherwise the stop time is written, and a failed write is `ErrWriteToDB`; the registry never changes |
| RecordingService.SecondStopKillsAgain | internal/services/recordings/recordings.go:142-163 | after one stop, a second stop of the same id still finds it and kills again, whatever the first stop's outcome |
| RecordingService.Schedule | internal/services/recordings/recordings.go:166-210 | the call is refused with `ErrInvalidStartTime` exactly when the start time is in the past; a bad duration is reported next; otherwise exactly one deferred start is armed, with a delay of at least zero that is zero exactly when the start time is now |
| RecordingService.CameraRecordings | internal/services/recordings/recordings.go:212-232 | a listing succeeds exactly when the storage call does; it has no effects, returns at most `limit` recordings, all of that camera and user, and wraps storage errors with the operation's name |
| RecordingService.Move | internal/services/recordings/recordings.go:234-264 | the row is flagged moved exactly when the lookup, the upload and the flag write all succeed; nothing is uploaded when the lookup fails; a failed flag write after a successful upload is `ErrWriteToDB` |
| RecordingService.Remove | internal/services/recordings/recordings.go:283-288 | removing a file succeeds exactly when there is no fault and the file exists, and then only that file is gone; a missing file is the "no such file or directory" error |
| RecordingService.Delete | internal/services/recordings/recordings.go:266-298 | the file is unlinked only when the recording is not moved; a failed unlink aborts before the row is deleted; the row is deleted exactly when the lookup, the unlink (if any) and the delete succeed, and no other row changes |
| RecordingService.File | internal/services/recordings/recordings.go:300-336 | the path is returned exactly when the row exists, is not moved and its file exists; a moved recording is `ErrFileAlreadyMoved`; a missing file deletes the row and is `ErrFileNotFound` |
| RecordingService.Fire | internal/services/recordings/recordings.go:193-207 | a deferred start with no cameras panics; a deferred stop never panics and leaves the registry as it was; firing consumes the timer, never shrinks the registry, and arms at most one deferred stop, for the new id and the scheduled length |
| RecordingService.DeferredStopStopsRecording | internal/services/recordings/recordings.go:200-206 | a fired deferred stop kills the registered process and, when the kill and the write succeed, gives the row the firing time as its stop time; an unregistered id has no effect |
| RecordingService.ScheduledStartArmsStop | internal/services/recordings/recordings.go:193-207 | when the deferred start succeeds, its process is registered and its deferred stop is armed |
| RecordingService.ScheduledStopArmedIff | internal/services/recordings/recordings.go:193-207 | the deferred stop is armed exactly when the cameras resolve and answer, the pipeline spawns and the start row is written |
| RecordingService.ScheduledSaveFailureLeaks | internal/services/recordings/recordings.go:193-207 | when the deferred start spawns but its row is not written, the process stays registered and no deferred stop for it is armed |
| RecordingService.RegistryNeverShrinks | internal/services/recordings/recordings.go:121-164 | over any sequence of requests, timer firings and files lost from disk, no registered id ever leaves the registry; a request with no cameras is recovered and changes nothing |
| RecordingService.MovedStaysMoved | internal/services/recordings/recordings.go:234-298 | over any sequence of requests, timer firings and files lost from disk that never deletes a row or fetches its file, a recording once moved stays present and moved |
| RecordService.DialAll | internal/services/records/records.go:53-66 | the reachability check passes exactly when every IP answers the dial; otherwise the error is the dial failure of one IP |
| RecordService.RecordingMode | internal/services/records/records.go:186-200 | planning fails, with the "too many arguments" error, exactly when there are neither one nor two IPs; every plan starts with the launcher |
| RecordService.RecordingModeTokens | internal/services/records/records.go:186-199 | when the IPs and the path contain no spaces, the argument vector is the template's token list |
| RecordService.TemplateShape | internal/services/records/records.go:188-194 | the one-camera template has 12 tokens, with the IP and the unquoted path in place; the two-camera template has 49 tokens, with the first camera's IP feeding both the first video source and the audio source |
| RecordService.Start | internal/services/records/records.go:44-104 | an unreachable camera stops the start before any effect, and is never reported as `ErrCameraIsNotAvailable`; the row is created before the camera count is checked, so three or more IPs leave an orphan row; the start succeeds exactly when every IP is reachable, the create succeeds, there are at most two IPs and the spawn succeeds; a failed start-time write is not reported |
| RecordService.FailedStartKeepsRow | internal/services/records/records.go:70-93 | a failed create spawns nothing; a failed spawn after a successful create reports the spawn error, and nothing deletes the created row |
| RecordService.Stop | internal/services/records/records.go:106-138 | an unknown id is "record not found"; a failed kill or stop-time write is reported wrapped; every error carries the start operation's label; the registry never changes |
| RecordService.SecondStopKillsAgain | internal/services/records/records.go:116-134 | stopping leaves the registry as it was, so a second stop of the same id kills again and, after a clean kill, writes the stop time again |
| RecordService.StartedStaysStoppable | internal/services/records/records.go:116-123 | after any run of calls, a stop of a registered id still finds it and issues the kill |
| RecordService.Schedule | internal/services/records/records.go:140-163 | the call is refused with `ErrInvalidStartTime` exactly when the start time is in the past; a bad duration is reported next; otherwise exactly one deferred start is armed, with a non-negative delay |
| RecordService.Fire | internal/services/records/records.go:167-181 | a deferred start with no IPs panics; a deferred stop leaves the registry as it was; the deferred stop is armed exactly when the deferred start succeeds, for the created id and the scheduled length |
| RecordService.ScheduledSpawnArmsStop | internal/services/records/records.go:167-181 | when the deferred start's IPs are reachable, the create succeeds and the spawn succeeds, the process is registered and its deferred stop is armed, even if the start-time write fails |
| Response.MessageIdentifiesError | internal/lib/api/response/response.go:25-39 | a validation message identifies its failure: two equal messages come from the same field failing the same rule, even when field names contain spaces, because the six complaints end differently |
| Response.ValidationError | internal/lib/api/response/response.go:22-45 | a validation response has no request id; its message is empty exactly when there are no field errors, and one error gives exactly that error's message |
| Response.ValidationErrorAppend | internal/lib/api/response/response.go:42-44 | one more field error appends `, ` and its message, so the messages keep the order of the errors |

## Left out

- HTTP handlers, routing, authentication, JWT, the cameras service and its storage, the migrator and `main`: they are outside the recording core.
- The older PostgreSQL records storage: the older service reaches it only through the create, start-time and stop-time writes, which are modelled as outcomes.
- Configuration loading (`MustLoad`, `cleanenv`, marshalling the ACL and processing sections): it panics on bad input and only fills the configuration that `Opencast.Move` takes as a parameter.
- Process start and kill, the RTSP handshake, the TCP dial, the camera-id lookup, file reads, `os.Remove`, `os.Stat`, HTTP and every database driver error are inputs to the operations. The model does not describe how they behave.
- `time.Now`, `uuid.New` and `time.ParseDuration` are inputs. Parsing a Go duration string is not modelled.
- Timers run one entry of the `pending` queue at a time, with no wall clock. Goroutine concurrency is left out: the unsynchronised registry map and the `err` variable shared between a timer closure and `Schedule`.
- Logging: it has no effect on results.
- RecordingStorage.StartThenRecording and RecordingStorage.StopThenRecording: the start and stop instants read back exactly, to the nanosecond. The table schema is not part of this model. If the columns are PostgreSQL timestamps, the database keeps microseconds and rounds the rest. A start at 10:00:59.9999996 would then read back as 10:01:00, and the Opencast episode's date, time and duration would follow the rounded instants.
- StartIo.cameraIp, StartIo.probe and the older service's StartIo.dial are functions of the camera id or address. A camera listed twice in one request therefore resolves, probes and dials the same way both times, where Go makes two independent calls. None of the stated properties depends on the two calls differing.
- Files on disk are a set of paths. A successful spawn adds its output path at once, standing in for the pipeline creating the file as it starts. A `FileLost` call stands for removal by anything other than the service. File contents, partial writes and a pipeline that dies before creating its file are not modelled.
- JSON encoding of the metadata, multipart wire encoding, the `Content-Type` header and basic-auth encoding: the form is a map from part name to payload, and the request holds the credentials as fields.
- Time zones and monotonic clock readings: an instant is a calendar date and time of day with nanoseconds, in one zone.
- Opencast.FormatDurationRoundTrip: `Duration.Hours`, `Minutes` and `Seconds` return floating-point values that are then truncated to `int`. The model uses integer division, which agrees except where float rounding of very long durations would differ.
- Opencast.Move: requires a file path of at least three characters when the file read succeeds. After a successful read, the source slices the extension without a check and panics on a shorter path. A failed read returns before the slice and is modelled for every path.
- Opencast.PresenterFilename: paths are sequences of characters, while Go slices the last three bytes of the path. The two agree for ASCII paths; for a path ending in multi-byte characters Go takes a different, possibly invalid, suffix.
- RecordingService.Start: requires at least one camera id, because the source indexes the first id unguarded and panics on an empty list. The same holds for RecordService.Start.
- RecordingStorage.CameraRecordings: takes the database's row order as an input enumeration of the matching rows, because the SQL has no `ORDER BY`.
- RecordingService.CameraRecordings: states the bound and the camera and user filter only. The full page is stated on RecordingStorage.CameraRecordings.
- Opencast.EpisodeDateReadsBack: requires a non-negative year, because the `2006` layout writes a negative year with a sign that the read-back does not parse.

=== FILE: clock.dfy ===
/** Go's `time` package as far as the recorder uses it: wall-clock instants
    (kept as calendar fields in one fixed zone), `Sub`/`Until` as a saturating
    64-bit nanosecond difference, and the three layouts the recorder formats
    instants with. */
module Clock {
  import opened Text

  /** A proleptic-Gregorian calendar instant with nanosecond precision. */
  datatype Time = Time(year: int, month: int, day: int, hour: int, minute: int, second: int, nanos: int) {
    predicate Valid() {
      && 1 <= month <= 12
      && 1 <= day <= DaysIn(year, month)
      && 0 <= hour < 24
      && 0 <= minute < 60
      && 0 <= second < 60
      && 0 <= nanos < NanosPerSecond
    }
  }

  type Instant = t: Time | t.Valid() witness Time(1, 1, 1, 0, 0, 0, 0)

  /** `time.Time{}`: January 1 of year 1, 00:00:00 UTC. */
  const ZeroTime: Instant := Time(1, 1, 1, 0, 0, 0, 0)

  const NanosPerSecond: int := 1_000_000_000
  const NanosPerMinute: int := 60 * NanosPerSecond
  const NanosPerHour: int := 60 * NanosPerMinute
  const NanosPerDay: int := 24 * NanosPerHour

  /** `time.Duration` is an int64 count of nanoseconds. */
  const MinDuration: int := -0x8000_0000_0000_0000
  const MaxDuration: int := 0x7fff_ffff_ffff_ffff
  type Duration = d: int | MinDuration <= d <= MaxDuration

  predicate IsLeap(y: int) {
    y % 4 == 0 && (y % 100 != 0 || y % 400 == 0)
  }

  function YearLength(y: int): int {
    if IsLeap(y) then 366 else 365
  }

  function DaysIn(y: int, m: int): int
    requires 1 <= m <= 12
  {
    if m == 2 then (if IsLeap(y) then 29 else 28)
    else if m == 4 || m == 6 || m == 9 || m == 11 then 30
    else 31
  }

  function DaysBeforeMonth(y: int, m: int): int
    requires 1 <= m <= 12
  {
    [0, 31, 59, 90, 120, 151, 181, 212, 243, 273, 304, 334][m - 1]
    + (if m > 2 && IsLeap(y) then 1 else 0)
  }

  /** Days from 0001-01-01 to January 1 of year `y` (negative before year 1);
      `/` is floor division here, as the Gregorian rules need. */
  function DaysBeforeYear(y: int): int {
    var p := y - 1;
    365 * p + p / 4 - p / 100 + p / 400
  }

  function DayNumber(t: Instant): int {
    DaysBeforeYear(t.year) + DaysBeforeMonth(t.year, t.month) + t.day - 1
  }

  function NanosOfDay(t: Instant): (r: int)
    ensures 0 <= r < NanosPerDay
  {
    ((t.hour * 60 + t.minute) * 60 + t.second) * NanosPerSecond + t.nanos
  }

  /** Nanoseconds since 0001-01-01 00:00:00. */
  function AbsoluteNanos(t: Instant): int {
    DayNumber(t) * NanosPerDay + NanosOfDay(t)
  }

  /** Clamp to the int64 range, as `Time.Sub` does on overflow. */
  function Saturate(n: int): (d: Duration)
    ensures (d < 0 <==> n < 0) && (d == 0 <==> n == 0)
    ensures MinDuration <= n <= MaxDuration ==> d == n
  {
    if n < MinDuration then MinDuration else if n > MaxDuration then MaxDuration else n
  }

  /** `u.Sub(t)`: the duration u - t. */
  function Sub(u: Instant, t: Instant): Duration {
    Saturate(AbsoluteNanos(u) - AbsoluteNanos(t))
  }

  /** `time.Until(t)` read at instant `now`. */
  function Until(now: Instant, t: Instant): Duration {
    Sub(t, now)
  }

  /** Calendar order: field by field, most significant first. */
  predicate Earlier(u: Instant, t: Instant) {
    || u.year < t.year
    || (u.year == t.year && u.month < t.month)
    || (u.year == t.year && u.month == t.month && u.day < t.day)
    || (u.year == t.year && u.month == t.month && u.day == t.day && NanosOfDay(u) < NanosOfDay(t))
  }

  lemma YearStep(y: int)
    ensures DaysBeforeYear(y + 1) == DaysBeforeYear(y) + YearLength(y)
  {
    DivStep(y, 4);
    DivStep(y, 100);
    DivStep(y, 400);
    assert y % 400 == 0 ==> y % 100 == 0 && y % 4 == 0;
    assert y % 100 == 0 ==> y % 4 == 0;
  }

  /** Floor division is determined by the quotient-remainder decomposition. */
  lemma DivUnique(y: int, k: int, a: int, b: int)
    requires k > 0 && 0 <= b < k && y == a * k + b
    ensures y / k == a && y % k == b
  {
    RadixUnique(a, b, y / k, y % k, k);
  }

  /** Moving to the next integer adds one to the quotient exactly at a multiple. */
  lemma DivStep(y: int, k: int)
    requires k > 0
    ensures y / k == (y - 1) / k + (if y % k == 0 then 1 else 0)
  {
    var q, r := (y - 1) / k, (y - 1) % k;
    assert y - 1 == q * k + r;
    if r == k - 1 {
      DivUnique(y, k, q + 1, 0);
    } else {
      DivUnique(y, k, q, r + 1);
    }
  }

  lemma {:induction false} YearsAreOrdered(y1: int, y2: int)
    requires y1 < y2
    ensures DaysBeforeYear(y1) + YearLength(y1) <= DaysBeforeYear(y2)
    decreases y2 - y1
  {
    YearStep(y1);
    if y1 + 1 < y2 {
      YearsAreOrdered(y1 + 1, y2);
    }
  }

  lemma MonthsAreOrdered(y: int, m1: int, m2: int)
    requires 1 <= m1 < m2 <= 12
    ensures DaysBeforeMonth(y, m1) + DaysIn(y, m1) <= DaysBeforeMonth(y, m2)
  {
  }

  lemma DayOfYearBound(t: Instant)
    ensures 0 <= DaysBeforeMonth(t.year, t.month) + t.day - 1 < YearLength(t.year)
  {
  }

  lemma DayNumbersAreOrdered(u: Instant, t: Instant)
    ensures DayNumber(u) < DayNumber(t) <==>
      (u.year < t.year || (u.year == t.year && (u.month < t.month || (u.month == t.month && u.day < t.day))))
    ensures DayNumber(u) == DayNumber(t) <==> (u.year == t.year && u.month == t.month && u.day == t.day)
  {
    DayOfYearBound(u);
    DayOfYearBound(t);
    if u.year < t.year {
      YearsAreOrdered(u.year, t.year);
    } else if t.year < u.year {
      YearsAreOrdered(t.year, u.year);
    } else if u.month < t.month {
      MonthsAreOrdered(u.year, u.month, t.month);
    } else if t.month < u.month {
      MonthsAreOrdered(u.year, t.month, u.month);
    }
  }

  /** The sign of a difference of instants is their calendar order: `Sub` is
      negative exactly when the first instant is earlier, and zero exactly when
      the two are the same instant. */
  lemma SubSign(u: Instant, t: Instant)
    ensures Sub(u, t) < 0 <==> Earlier(u, t)
    ensures Sub(u, t) == 0 <==> u == t
  {
    DayNumbersAreOrdered(u, t);
    var du, dt := DayNumber(u), DayNumber(t);
    var nu, nt := NanosOfDay(u), NanosOfDay(t);
    MulStep(du, dt, NanosPerDay);
    MulStep(dt, du, NanosPerDay);
    assert AbsoluteNanos(u) == du * NanosPerDay + nu;
    assert AbsoluteNanos(t) == dt * NanosPerDay + nt;
    if du == dt && nu == nt {
      NanosOfDayInjective(u, t);
    }
  }

  lemma {:induction false} MulStep(a: int, c: int, base: nat)
    ensures a < c ==> a * base + base <= c * base
    decreases if a < c then c - a else 0
  {
    if a + 1 < c {
      MulStep(a + 1, c, base);
      assert (a + 1) * base == a * base + base;
    } else if a + 1 == c {
      assert c * base == a * base + base;
    }
  }

  /** Mixed-radix digits are unique: equal values mean equal digits. */
  lemma RadixUnique(a: int, b: int, c: int, d: int, base: nat)
    requires 0 <= b < base && 0 <= d < base
    requires a * base + b == c * base + d
    ensures a == c && b == d
  {
    MulStep(a, c, base);
    MulStep(c, a, base);
  }

  lemma NanosOfDayInjective(u: Instant, t: Instant)
    requires NanosOfDay(u) == NanosOfDay(t)
    ensures u.hour == t.hour && u.minute == t.minute && u.second == t.second && u.nanos == t.nanos
  {
    RadixUnique((u.hour * 60 + u.minute) * 60 + u.second, u.nanos,
                (t.hour * 60 + t.minute) * 60 + t.second, t.nanos, NanosPerSecond);
    RadixUnique(u.hour * 60 + u.minute, u.second, t.hour * 60 + t.minute, t.second, 60);
    RadixUnique(u.hour, u.minute, t.hour, t.minute, 60);
  }

  /** `t.Format("2006-01-02")` (`time.DateOnly`). */
  function DateOnly(t: Instant): string {
    LayoutNumber(t.year, 4) + "-" + LayoutNumber(t.month, 2) + "-" + LayoutNumber(t.day, 2)
  }

  /** `t.Format("15:04:05")` (`time.TimeOnly`). */
  function TimeOnly(t: Instant): string {
    LayoutNumber(t.hour, 2) + ":" + LayoutNumber(t.minute, 2) + ":" + LayoutNumber(t.second, 2)
  }

  /** `t.Format("2006-01-02_15-04-05")`, the stamp in recording file names. */
  function FileStamp(t: Instant): string {
    LayoutNumber(t.year, 4) + "-" + LayoutNumber(t.month, 2) + "-" + LayoutNumber(t.day, 2) + "_"
    + LayoutNumber(t.hour, 2) + "-" + LayoutNumber(t.minute, 2) + "-" + LayoutNumber(t.second, 2)
  }

  /** Reads back the numbers of a layout made of digit fields and one separator. */
  function ParseFields(s: string, sep: char): seq<int> {
    var pieces := Split(s, sep);
    seq(|pieces|, i requires 0 <= i < |pieces| =>
      if IsDigits(pieces[i]) then ParseDecimal(pieces[i]) else -1)
  }

  lemma DigitsAvoid(s: string, sep: char)
    requires IsDigits(s) && !('0' <= sep <= '9')
    ensures sep !in s
  {
  }

  lemma JoinThree(a: string, b: string, c: string, sep: string)
    ensures Join([a, b, c], sep) == a + sep + b + sep + c
  {
    assert [a, b, c][1..] == [b, c];
    assert [b, c][1..] == [c];
    assert Join([c], sep) == c;
    assert Join([b, c], sep) == b + sep + c;
    assert Join([a, b, c], sep) == a + sep + (b + sep + c);
  }

  lemma ParseDigitPieces(pieces: seq<string>, values: seq<int>, sep: char)
    requires |pieces| == |values|
    requires forall i :: 0 <= i < |pieces| ==> IsDigits(pieces[i]) && ParseDecimal(pieces[i]) == values[i]
    requires |pieces| >= 1 && forall i :: 0 <= i < |pieces| ==> sep !in pieces[i]
    ensures ParseFields(Join(pieces, [sep]), sep) == values
  {
    SplitJoin(pieces, sep);
  }

  lemma ThreeFields(a: int, b: int, c: int, wa: nat, sep: char)
    requires a >= 0 && b >= 0 && c >= 0
    requires !('0' <= sep <= '9')
    ensures ParseFields(LayoutNumber(a, wa) + [sep] + LayoutNumber(b, 2) + [sep] + LayoutNumber(c, 2), sep) == [a, b, c]
  {
    var pa, pb, pc := LayoutNumber(a, wa), LayoutNumber(b, 2), LayoutNumber(c, 2);
    DigitsAvoid(pa, sep);
    DigitsAvoid(pb, sep);
    DigitsAvoid(pc, sep);
    JoinThree(pa, pb, pc, [sep]);
    var pieces, values := [pa, pb, pc], [a, b, c];
    assert forall i :: 0 <= i < 3 ==> IsDigits(pieces[i]) && ParseDecimal(pieces[i]) == values[i] && sep !in pieces[i] by {
      assert pieces[0] == pa && pieces[1] == pb && pieces[2] == pc;
    }
    ParseDigitPieces(pieces, values, sep);
  }

  /** The date layout loses nothing for years 0..: year, month and day read back
      from it. */
  lemma DateOnlyRoundTrip(t: Instant)
    requires t.year >= 0
    ensures ParseFields(DateOnly(t), '-') == [t.year, t.month, t.day]
    ensures t.year < 10000 ==> |DateOnly(t)| == 10
  {
    ThreeFields(t.year, t.month, t.day, 4, '-');
    assert Pow10(2) == 100 && Pow10(4) == 10000;
  }

  /** The clock layout keeps hour, minute and second (nanoseconds are dropped),
      each in exactly two digits. */
  lemma TimeOnlyRoundTrip(t: Instant)
    ensures ParseFields(TimeOnly(t), ':') == [t.hour, t.minute, t.second]
    ensures |TimeOnly(t)| == 8
  {
    ThreeFields(t.hour, t.minute, t.second, 2, ':');
    assert Pow10(2) == 100;
  }

  /** Go's integer `/` on int64: truncation toward zero. The quotient is the
      one whose remainder is below the divisor in size and shares the
      dividend's sign; its own sign is the dividend's unless it is zero. */
  function TruncDiv(a: int, b: int): (q: int)
    requires b > 0
    ensures a >= 0 ==> 0 <= a - q * b < b
    ensures a < 0 ==> -b < a - q * b <= 0
    ensures q >= 0 <==> a > -b
  {
    if a >= 0 then
      EuclidDiv(a, b);
      a / b
    else
      EuclidDiv(-a, b);
      -((-a) / b)
  }

  /** Division of a natural number: the remainder is below the divisor, and
      the quotient is zero exactly for a dividend below the divisor. */
  lemma EuclidDiv(n: nat, b: int)
    requires b > 0
    ensures 0 <= n - (n / b) * b < b
    ensures n / b >= 0 && (n / b == 0 <==> n < b)
  {
    var q, r := n / b, n % b;
    assert n == q * b + r && 0 <= r < b;
    if q >= 1 {
      assert q * b >= b;
    }
  }

  /** Go's `%`: the remainder takes the sign of the dividend. */
  function TruncMod(a: int, b: int): (r: int)
    requires b > 0
    ensures a == TruncDiv(a, b) * b + r
    ensures a >= 0 ==> 0 <= r < b
    ensures a < 0 ==> -b < r <= 0
  {
    a - TruncDiv(a, b) * b
  }
}

=== FILE: effects.dfy ===
/** The side effects the two orchestrators attempt, in the order they attempt
    them, and the deferred actions standing in for `time.AfterFunc` timers.
    Reads (camera lookups, probes, row fetches, stat) are not effects. */
module Effects {
  import opened Clock

  /** A spawned capture process, as a registry entry holds it. */
  datatype Process = Process(pid: nat, argv: seq<string>)

  /** A timer armed by `Schedule`: a deferred start that, when it succeeds,
      arms a deferred stop after `length`. */
  datatype Deferred =
    | DeferredStart(cameras: seq<string>, userId: int, delay: Duration, length: Duration)
    | DeferredStop(recordId: string, delay: Duration)

  /** A persistence write, named after the collaborator's method. */
  datatype Write =
    | SaveStart(recordId: string)
    | SaveStop(recordId: string)
    | MarkMoved(recordId: string)
    | DeleteRow(recordId: string)
    | CreateRecord(userId: int, cameraIp: string)
    | SaveStartTime(recordId: string, filePath: string)

  datatype Effect =
    | Spawn(argv: seq<string>)
    | Kill(recordId: string)
    | Persist(write: Write)
    | Upload(recordId: string)
    | Unlink(path: string)
    | Arm(action: Deferred)

  /** The armed timers once the one at `i` has fired: the others, in the
      order they were armed. */
  function Without(pending: seq<Deferred>, i: nat): (r: seq<Deferred>)
    requires i < |pending|
    ensures |r| == |pending| - 1
    ensures forall j :: 0 <= j < |r| ==> r[j] == (if j < i then pending[j] else pending[j + 1])
  {
    pending[..i] + pending[i + 1..]
  }

  predicate Spawns(effects: seq<Effect>) {
    exists i :: 0 <= i < |effects| && effects[i].Spawn?
  }
}

=== FILE: errs.dfy ===
/** The error values of the recorder. The named sentinels are the package-level
    errors of the `errs` package (three of which are referenced by the services
    and the camera storage but are absent from the errors file); `Failure` is any
    error produced outside that package (driver, OS, HTTP, process or parser
    errors), and `Wrapped` is `fmt.Errorf("%s: %w", op, cause)`. */
module Errs {

  datatype Error =
    | UserType
    | UserExists
    | InvalidCredentials
    | CameraAlreadyExists
    | CameraIsNotAvailable
    | RecordNotFound
    | InvalidStartTime
    | WriteToDB
    | FileNotFound
    | FileAlreadyMoved
    | CameraNotFound
    | Failure(msg: string)
    | Wrapped(op: string, cause: Error)

  /** The sentinel an error carries once every `%w` layer is peeled off. */
  function Root(e: Error): (r: Error)
    ensures !r.Wrapped?
  {
    match e
    case Wrapped(_, cause) => Root(cause)
    case _ => e
  }

  /** Go's `errors.Is` on a chain built only from `%w` wrapping: the target is
      the error itself or one of the causes it wraps. */
  predicate Is(e: Error, target: Error) {
    e == target || (e.Wrapped? && Is(e.cause, target))
  }

  /** Wrapping never hides a sentinel from `errors.Is`, and a sentinel is found
      exactly when it is the root of the chain. */
  lemma {:induction false} IsSentinelIffRoot(e: Error, target: Error)
    requires !target.Wrapped?
    ensures Is(e, target) <==> Root(e) == target
  {
    match e
    case Wrapped(_, cause) =>
      IsSentinelIffRoot(cause, target);
    case _ =>
  }
}

=== FILE: models.dfy ===
/** The recording record shared by the services, the storage and the archive
    mover. */
module Models {
  import opened Clock

  datatype Recording = Recording(
    recordingId: string,
    cameraIp: string,
    filePath: string,
    userId: int,
    startTime: Instant,
    stopTime: Instant,
    isMoved: bool)
}

=== FILE: opencast.dfy ===
/** The archive mover (`opencast.Move` and `createForm`, identical in the
    recording service's and the legacy record service's copies): it reads the
    recording's media, builds the Dublin Core episode metadata and a four-part
    multipart form, and posts it to the archive's events endpoint with HTTP
    Basic credentials. Reading the file, JSON marshalling, building the form,
    building the request and the HTTP exchange are oracle outcomes; only the
    values handed to those library calls are modelled. */
module Opencast {
  import opened Wrappers
  import opened Errs
  import opened Text
  import opened Clock
  import opened Models

  type Bytes = seq<bv8>

  /** The mover's configuration: endpoint, credentials and the pre-marshalled
      access-control list and processing descriptor. */
  datatype Config = Config(address: string, login: string, password: string, acl: Bytes, processing: Bytes)

  datatype Field = Field(id: string, value: string)
  datatype Metadata = Metadata(flavor: string, fields: seq<Field>)

  /** What a form part carries: raw bytes, or the metadata document (its JSON
      encoding is left to the library). */
  datatype Payload = Raw(bytes: Bytes) | MetadataJson(doc: seq<Metadata>)

  /** A multipart form part: a file part with its file name, or a plain field. */
  datatype Part = FilePart(filename: string, payload: Payload) | FieldPart(payload: Payload)

  datatype Request = Request(verb: string, url: string, login: string, password: string, form: map<string, Part>)

  datatype HttpResponse = HttpResponse(code: int, status: string)

  /** The outcomes of the library and system calls `Move` makes, in call order. */
  datatype MoveIo = MoveIo(
    video: Result<Bytes, Error>,
    marshalFault: Option<Error>,
    formFault: Option<Error>,
    requestFault: Option<Error>,
    reply: Result<HttpResponse, Error>)

  /** What one call did: the request it sent, if it got that far, and its result. */
  datatype Attempt = Attempt(sent: Option<Request>, outcome: Outcome<Error>)

  const Op: string := "opencast.Move"
  const FileExtension: nat := 3
  const EpisodeFlavor: string := "dublincore/episode"
  const StatusOK: int := 200
  const StatusCreated: int := 201

  /** Hours, minutes and seconds as the mover takes them from a duration:
      whole hours (not reduced modulo 24), then minutes and seconds modulo 60,
      every quotient truncated toward zero. */
  function DurationParts(d: Duration): (int, int, int) {
    (TruncDiv(d, NanosPerHour), TruncMod(TruncDiv(d, NanosPerMinute), 60), TruncMod(TruncDiv(d, NanosPerSecond), 60))
  }

  /** `%02d:%02d:%02d` of the parts. */
  function FormatDuration(d: Duration): string {
    var (h, m, s) := DurationParts(d);
    FmtTwoDigits(h) + ":" + FmtTwoDigits(m) + ":" + FmtTwoDigits(s)
  }

  lemma WholeSeconds(d: Duration)
    requires d >= 0
    ensures var (h, m, s) := DurationParts(d);
      h >= 0 && 0 <= m < 60 && 0 <= s < 60 && h * 3600 + m * 60 + s == d / NanosPerSecond
  {
    var secs := d / NanosPerSecond;
    assert d / NanosPerMinute == secs / 60;
    assert d / NanosPerHour == secs / 3600;
    assert secs / 3600 == (secs / 60) / 60;
  }

  /** A non-negative duration's string reads back as three numbers that
      recompose the duration's whole seconds: sub-second parts are dropped,
      minutes and seconds stay below 60, and hours are unbounded. */
  lemma FormatDurationRoundTrip(d: Duration)
    requires d >= 0
    ensures var f := ParseFields(FormatDuration(d), ':');
      |f| == 3 && 0 <= f[1] < 60 && 0 <= f[2] < 60 && f[0] >= 0
      && f[0] * 3600 + f[1] * 60 + f[2] == d / NanosPerSecond
    ensures d < 100 * NanosPerHour ==> |FormatDuration(d)| == 8
  {
    WholeSeconds(d);
    var (h, m, s) := DurationParts(d);
    TwoDigitFields(h, m, s);
    if d < 100 * NanosPerHour {
      assert h == d / NanosPerHour < 100;
    }
  }

  /** Three non-negative numbers printed with `%02d:%02d:%02d` read back. */
  lemma TwoDigitFields(h: int, m: int, s: int)
    requires h >= 0 && m >= 0 && s >= 0
    ensures ParseFields(FmtTwoDigits(h) + ":" + FmtTwoDigits(m) + ":" + FmtTwoDigits(s), ':') == [h, m, s]
  {
    var ph, pm, ps := FmtTwoDigits(h), FmtTwoDigits(m), FmtTwoDigits(s);
    DigitsAvoid(ph, ':');
    DigitsAvoid(pm, ':');
    DigitsAvoid(ps, ':');
    JoinThree(ph, pm, ps, ":");
    var pieces, values := [ph, pm, ps], [h, m, s];
    assert forall i :: 0 <= i < 3 ==> IsDigits(pieces[i]) && ParseDecimal(pieces[i]) == values[i] && ':' !in pieces[i] by {
      assert pieces[0] == ph && pieces[1] == pm && pieces[2] == ps;
    }
    ParseDigitPieces(pieces, values, ':');
  }

  /** The one-entry episode metadata: title, start date, start time, duration
      and location, in that order, with the camera address as title and
      location. */
  function EpisodeMetadata(rec: Recording): seq<Metadata> {
    Episode(rec.cameraIp, DateOnly(rec.startTime), TimeOnly(rec.startTime),
            FormatDuration(Sub(rec.stopTime, rec.startTime)))
  }

  function Episode(cameraIp: string, date: string, time: string, duration: string): seq<Metadata> {
    [Metadata(EpisodeFlavor, [
      Field("title", cameraIp),
      Field("startDate", date),
      Field("startTime", time),
      Field("duration", duration),
      Field("location", cameraIp)])]
  }

  /** The metadata values read back: the start date gives the start's year,
      month and day (for years 0 and later), the start time its hour, minute and
      second, and, once the recording is stopped (stop not earlier than start),
      the duration recomposes its length in whole seconds. */
  lemma EpisodeDateReadsBack(rec: Recording)
    requires rec.startTime.year >= 0
    ensures ParseFields(EpisodeMetadata(rec)[0].fields[1].value, '-') == [rec.startTime.year, rec.startTime.month, rec.startTime.day]
    ensures rec.startTime.year < 10000 ==> |EpisodeMetadata(rec)[0].fields[1].value| == 10
  {
    EpisodeFields(rec);
    DateOnlyRoundTrip(rec.startTime);
  }

  lemma EpisodeTimeReadsBack(rec: Recording)
    ensures ParseFields(EpisodeMetadata(rec)[0].fields[2].value, ':') == [rec.startTime.hour, rec.startTime.minute, rec.startTime.second]
    ensures |EpisodeMetadata(rec)[0].fields[2].value| == 8
  {
    EpisodeFields(rec);
    TimeOnlyRoundTrip(rec.startTime);
  }

  lemma EpisodeDurationReadsBack(rec: Recording)
    requires !Earlier(rec.stopTime, rec.startTime)
    ensures var f := ParseFields(EpisodeMetadata(rec)[0].fields[3].value, ':');
      |f| == 3 && f[0] * 3600 + f[1] * 60 + f[2] == Sub(rec.stopTime, rec.startTime) / NanosPerSecond
    ensures Sub(rec.stopTime, rec.startTime) < 100 * NanosPerHour ==> |EpisodeMetadata(rec)[0].fields[3].value| == 8
  {
    EpisodeFields(rec);
    StoppedIsNonNegative(rec.stopTime, rec.startTime);
    FormatDurationRoundTrip(Sub(rec.stopTime, rec.startTime));
  }

  /** The whole metadata promise: one `dublincore/episode` catalog whose five
      fields are title, start date, start time, duration and location, in that
      order, with the camera address as both title and location. */
  lemma EpisodeFields(rec: Recording)
    ensures var md := EpisodeMetadata(rec);
      && |md| == 1 && md[0].flavor == EpisodeFlavor && |md[0].fields| == 5
      && md[0].fields[0] == Field("title", rec.cameraIp)
      && md[0].fields[1] == Field("startDate", DateOnly(rec.startTime))
      && md[0].fields[2] == Field("startTime", TimeOnly(rec.startTime))
      && md[0].fields[3] == Field("duration", FormatDuration(Sub(rec.stopTime, rec.startTime)))
      && md[0].fields[4] == Field("location", rec.cameraIp)
  {
    var date, time := DateOnly(rec.startTime), TimeOnly(rec.startTime);
    var duration := FormatDuration(Sub(rec.stopTime, rec.startTime));
    EpisodeUnfolds(rec);
    EpisodeShape(rec.cameraIp, date, time, duration);
  }

  lemma EpisodeUnfolds(rec: Recording)
    ensures EpisodeMetadata(rec) == Episode(rec.cameraIp, DateOnly(rec.startTime), TimeOnly(rec.startTime),
                                            FormatDuration(Sub(rec.stopTime, rec.startTime)))
  {
  }

  lemma EpisodeShape(cameraIp: string, date: string, time: string, duration: string)
    ensures var md := Episode(cameraIp, date, time, duration);
      && |md| == 1 && md[0].flavor == EpisodeFlavor && |md[0].fields| == 5
      && md[0].fields[0] == Field("title", cameraIp) && md[0].fields[4] == Field("location", cameraIp)
      && md[0].fields[1] == Field("startDate", date) && md[0].fields[2] == Field("startTime", time)
      && md[0].fields[3] == Field("duration", duration)
  {
  }

  lemma StoppedIsNonNegative(stop: Instant, start: Instant)
    requires !Earlier(stop, start)
    ensures Sub(stop, start) >= 0
  {
    SubSign(stop, start);
  }

  /** The presenter part's file name: the part name, a dot and the last three
      characters of the recording's path. Go slices the last three bytes;
      the two agree on ASCII paths. */
  function PresenterFilename(filePath: string): string
    requires |filePath| >= FileExtension
  {
    "presenter" + "." + Suffix(filePath, FileExtension)
  }

  /** `createForm`: every entry of the data map becomes one part; only the
      presenter entry becomes a file part. The part order is the map's
      iteration order and is not modelled. The source slices the path without
      checking its length, so a path shorter than three characters panics. */
  function CreateForm(data: map<string, Payload>, filePath: string, fault: Option<Error>): (r: Result<map<string, Part>, Error>)
    requires |filePath| >= FileExtension
    ensures fault.Some? <==> r.Err?
    ensures r.Ok? ==> r.value.Keys == data.Keys
    ensures r.Ok? ==> forall name :: name in r.value ==> r.value[name].payload == data[name]
    ensures r.Ok? ==> forall name :: name in r.value ==> (r.value[name].FilePart? <==> name == "presenter")
  {
    if fault.Some? then Err(fault.value)
    else Ok(map name | name in data ::
      if name == "presenter" then FilePart(PresenterFilename(filePath), data[name]) else FieldPart(data[name]))
  }

  /** The four entries handed to `createForm`. */
  function FormData(cfg: Config, md: seq<Metadata>, video: Bytes): map<string, Payload> {
    map["presenter" := Raw(video), "metadata" := MetadataJson(md),
        "acl" := Raw(cfg.acl), "processing" := Raw(cfg.processing)]
  }

  /** The form `Move` builds when nothing fails. */
  function UploadForm(cfg: Config, rec: Recording, video: Bytes): map<string, Part>
    requires |rec.filePath| >= FileExtension
  {
    CreateForm(FormData(cfg, EpisodeMetadata(rec), video), rec.filePath, None).value
  }

  /** The form for given metadata has exactly four parts: the media as the one
      file part, named after the path's extension, the metadata document, and
      the configured access-control list and processing descriptor. */
  lemma FormParts(cfg: Config, md: seq<Metadata>, video: Bytes, filePath: string)
    requires |filePath| >= FileExtension
    ensures var form := CreateForm(FormData(cfg, md, video), filePath, None).value;
      && form.Keys == {"presenter", "metadata", "acl", "processing"}
      && form["presenter"] == FilePart(PresenterFilename(filePath), Raw(video))
      && form["metadata"] == FieldPart(MetadataJson(md))
      && form["acl"] == FieldPart(Raw(cfg.acl))
      && form["processing"] == FieldPart(Raw(cfg.processing))
  {
    var data := FormData(cfg, md, video);
    assert data.Keys == {"presenter", "metadata", "acl", "processing"};
  }

  /** The uploaded form carries the media, the recording's episode metadata,
      the access-control list and the processing descriptor, and nothing else. */
  lemma UploadFormParts(cfg: Config, rec: Recording, video: Bytes)
    requires |rec.filePath| >= FileExtension
    ensures var form := UploadForm(cfg, rec, video);
      && form.Keys == {"presenter", "metadata", "acl", "processing"}
      && form["presenter"] == FilePart(PresenterFilename(rec.filePath), Raw(video))
      && form["metadata"] == FieldPart(MetadataJson(EpisodeMetadata(rec)))
      && form["acl"] == FieldPart(Raw(cfg.acl))
      && form["processing"] == FieldPart(Raw(cfg.processing))
  {
    FormParts(cfg, EpisodeMetadata(rec), video, rec.filePath);
  }

  /** `Move`: the upload succeeds exactly when every step before the exchange
      succeeded and the archive answered 200 or 201. A failed read returns
      before the path's extension is taken; after a successful read, a path
      shorter than the extension makes the source panic, so such a call is
      excluded. */
  function Move(cfg: Config, rec: Recording, io: MoveIo): (r: Attempt)
    requires io.video.Err? || |rec.filePath| >= FileExtension
    ensures r.outcome.Pass? <==>
      io.video.Ok? && io.marshalFault.None? && io.formFault.None? && io.requestFault.None?
      && io.reply.Ok? && (io.reply.value.code == StatusOK || io.reply.value.code == StatusCreated)
    ensures r.sent.Some? <==>
      io.video.Ok? && io.marshalFault.None? && io.formFault.None? && io.requestFault.None?
    ensures r.sent.Some? ==>
      r.sent.value == Request("POST", cfg.address + "/api/events", cfg.login, cfg.password,
                              UploadForm(cfg, rec, io.video.value))
    ensures io.video.Err? ==> r.outcome.Fail? && Is(r.outcome.error, io.video.error)
    ensures io.video.Ok? && io.reply.Err? ==> r.outcome.Fail? && (r.sent.Some? ==> Is(r.outcome.error, io.reply.error))
  {
    match io.video
    case Err(e) => Attempt(None, Fail(Wrapped(Op + ": failed to read video file", e)))
    case Ok(video) =>
      if io.marshalFault.Some? then
        Attempt(None, Fail(Wrapped(Op + ": failed to marshal metadata", io.marshalFault.value)))
      else
        match CreateForm(FormData(cfg, EpisodeMetadata(rec), video), rec.filePath, io.formFault)
        case Err(e) => Attempt(None, Fail(Wrapped(Op + ": failed to create form", e)))
        case Ok(form) =>
          if io.requestFault.Some? then
            Attempt(None, Fail(Wrapped(Op + ": failed to create request", io.requestFault.value)))
          else
            var req := Request("POST", cfg.address + "/api/events", cfg.login, cfg.password, form);
            match io.reply
            case Err(e) => Attempt(Some(req), Fail(Wrapped(Op + ": failed to send request", e)))
            case Ok(resp) =>
              if resp.code != StatusCreated && resp.code != StatusOK then
                Attempt(Some(req), Fail(Failure(Op + ": failed to move video: " + resp.status)))
              else
                Attempt(Some(req), Pass)
  }
}

=== FILE: planner.dfy ===
/** The pipeline planner of the recording service (`recordingMode`): from the
    probed camera descriptors and the output path to the argument vector of a
    `gst-launch-1.0` invocation. The command line is a fixed template with the
    camera addresses and the path substituted in, split on single spaces. */
module Planner {
  import opened Wrappers
  import opened Errs
  import opened Text

  /** A camera taking part in a session: its stream address and whether its
      probe reported an audio track. */
  datatype Camera = Camera(ip: string, audio: bool)

  const Launcher: string := "gst-launch-1.0"

  /** The error for a camera count other than one or two. */
  const CountError: Error := Failure("too many arguments in camera_ips")

  /** One camera with audio: decoded video and MP3 audio muxed into Matroska. */
  function SingleWithAudio(ip: string, path: string): seq<string> {
    [
      "gst-launch-1.0", "uridecodebin", "uri=" + ip, "name=dec", "!", "queue", "!",
      "videoconvert", "!", "x264enc", "!", "matroskamux", "name=mux", "!", "filesink",
      "location=" + path, "dec.", "!", "queue", "!", "audioconvert", "!", "lamemp3enc", "!",
      "mux."
    ]
  }

  /** `rtspsrc location=<ip> ! rtph264depay ! h264parse ! matroskamux ! filesink
      location=<location>`: the H.264 stream of one camera muxed as is. */
  function RtspCopy(ip: string, location: string): seq<string> {
    [
      "gst-launch-1.0", "rtspsrc", "location=" + ip, "!", "rtph264depay", "!", "h264parse",
      "!", "matroskamux", "!", "filesink", "location=" + location
    ]
  }

  /** One camera without audio: the path is wrapped in literal quote characters. */
  function SingleVideo(ip: string, path: string): seq<string> {
    RtspCopy(ip, "\"" + path + "\"")
  }

  /** Two cameras, the first with audio: only the first camera's video and AAC
      audio are recorded; the path is wrapped in literal quote characters. */
  function DualWithAudio(ip: string, path: string): seq<string> {
    [
      "gst-launch-1.0", "rtspsrc", "location=" + ip, "name=src", "!", "rtph264depay", "!",
      "h264parse", "!", "queue", "!", "mux.", "src.", "!", "rtpmp4gdepay", "!", "aacparse",
      "!", "queue", "!", "mux.", "matroskamux", "name=mux", "!", "filesink",
      "location=\"" + path + "\""
    ]
  }

  /** The head of the composite pipelines: a 640+640 pixel wide mixer whose
      output is H.264-encoded into the muxer. */
  const MixerHead: seq<string> := [
    "gst-launch-1.0", "-e", "videomixer", "name=mix", "sink_0::xpos=0", "sink_1::xpos=640",
    "!", "videoconvert", "!", "x264enc", "!", "queue", "!", "mux."
  ]

  /** One camera decoded and scaled to 640x480 into the mixer pad `pad`. */
  function ScaledSource(ip: string, pad: string): seq<string> {
    [
      "uridecodebin", "uri=" + ip, "!", "videoconvert", "!", "videoscale", "!",
      "video/x-raw,width=640,height=480", "!", pad
    ]
  }

  /** The Matroska muxer writing to `location`. */
  function MkvSink(location: string): seq<string> {
    ["matroskamux", "name=mux", "!", "filesink", "location=" + location]
  }

  /** Two cameras, the first without audio: side-by-side 640x480 composite. */
  function DualVideo(ip0: string, ip1: string, path: string): seq<string> {
    MixerHead + ScaledSource(ip0, "mix.sink_0") + ScaledSource(ip1, "mix.sink_1") + MkvSink(path)
  }

  /** The template `recordingMode` picks: by the number of cameras and the
      first camera's audio flag alone. */
  function Template(cameras: seq<Camera>, path: string): Option<seq<string>> {
    if |cameras| == 1 then
      Some(if cameras[0].audio then SingleWithAudio(cameras[0].ip, path) else SingleVideo(cameras[0].ip, path))
    else if |cameras| == 2 then
      Some(if cameras[0].audio then DualWithAudio(cameras[0].ip, path) else DualVideo(cameras[0].ip, cameras[1].ip, path))
    else None
  }

  /** `recordingMode`: the formatted command line split on single spaces. */
  function RecordingMode(cameras: seq<Camera>, path: string): (r: Result<seq<string>, Error>)
    ensures r.Err? <==> |cameras| != 1 && |cameras| != 2
    ensures r.Err? ==> r.error == CountError
    ensures r.Ok? ==> |r.value| >= 1 && r.value[0] == Launcher
  {
    match Template(cameras, path)
    case None => Err(CountError)
    case Some(tokens) =>
      SplitJoinHead(tokens, ' ');
      Ok(Split(Join(tokens, " "), ' '))
  }

  predicate SpaceFree(s: string) {
    ' ' !in s
  }

  /** Whether the chosen template wraps the output path in quote characters. */
  predicate QuotesPath(cameras: seq<Camera>) {
    (|cameras| == 1 && !cameras[0].audio) || (|cameras| == 2 && cameras[0].audio)
  }

  /** Where the `filesink location=` argument sits in each template. */
  function PathIndex(cameras: seq<Camera>): nat
    requires |cameras| == 1 || |cameras| == 2
  {
    if |cameras| == 1 then (if cameras[0].audio then 15 else 11)
    else (if cameras[0].audio then 25 else 38)
  }

  /** When no address and not the path contains a space, the argument vector is
      exactly the template's token list, one argument per template word. */
  lemma RecordingModeTokens(cameras: seq<Camera>, path: string)
    requires |cameras| == 1 || |cameras| == 2
    requires forall i :: 0 <= i < |cameras| ==> SpaceFree(cameras[i].ip)
    requires SpaceFree(path)
    ensures RecordingMode(cameras, path) == Ok(Template(cameras, path).value)
  {
    var tokens := Template(cameras, path).value;
    assert SpaceFree(cameras[0].ip);
    if |cameras| == 1 {
      if cameras[0].audio {
        SingleWithAudioSpaceFree(cameras[0].ip, path);
      } else {
        SingleVideoSpaceFree(cameras[0].ip, path);
      }
    } else {
      assert SpaceFree(cameras[1].ip);
      if cameras[0].audio {
        DualWithAudioSpaceFree(cameras[0].ip, path);
      } else {
        DualVideoSpaceFree(cameras[0].ip, cameras[1].ip, path);
      }
    }
    SplitJoin(tokens, ' ');
  }

  /** The templates have 25, 12, 26 and 39 words; the `filesink` path argument
      is quoted in exactly the two templates that quote it, and the composite
      template is the only one that mentions the second camera. */
  lemma TemplateShape(cameras: seq<Camera>, path: string)
    requires |cameras| == 1 || |cameras| == 2
    ensures var argv := Template(cameras, path).value;
      && |argv| == (if |cameras| == 1 then (if cameras[0].audio then 25 else 12) else (if cameras[0].audio then 26 else 39))
      && PathIndex(cameras) < |argv|
      && argv[PathIndex(cameras)] == "location=" + (if QuotesPath(cameras) then "\"" + path + "\"" else path)
      && (|cameras| == 2 && !cameras[0].audio ==> argv[25] == "uri=" + cameras[1].ip)
  {
    if |cameras| == 2 && !cameras[0].audio {
      DualVideoShape(cameras[0].ip, cameras[1].ip, path);
    }
  }

  /** The composite template: the first camera at word 15, the second at
      word 25, the unquoted path last. */
  lemma DualVideoShape(ip0: string, ip1: string, path: string)
    ensures var argv := DualVideo(ip0, ip1, path);
      && |argv| == 39
      && argv[15] == "uri=" + ip0
      && argv[25] == "uri=" + ip1
      && argv[38] == "location=" + path
  {
    var head := MixerHead + ScaledSource(ip0, "mix.sink_0");
    assert |head| == 24 && head[15] == "uri=" + ip0;
    var body := head + ScaledSource(ip1, "mix.sink_1");
    assert |body| == 34 && body[25] == "uri=" + ip1 && body[15] == head[15];
  }

  predicate TokensSpaceFree(tokens: seq<string>) {
    forall i :: 0 <= i < |tokens| ==> ' ' !in tokens[i]
  }

  lemma SingleWithAudioSpaceFree(ip: string, path: string)
    requires SpaceFree(ip) && SpaceFree(path)
    ensures TokensSpaceFree(SingleWithAudio(ip, path))
  {
  }

  lemma ConcatSpaceFree(a: seq<string>, b: seq<string>)
    requires TokensSpaceFree(a) && TokensSpaceFree(b)
    ensures TokensSpaceFree(a + b)
  {
    forall i | 0 <= i < |a + b|
      ensures ' ' !in (a + b)[i]
    {
      if i >= |a| {
        assert (a + b)[i] == b[i - |a|];
      }
    }
  }

  lemma RtspCopySpaceFree(ip: string, location: string)
    requires SpaceFree(ip) && SpaceFree(location)
    ensures TokensSpaceFree(RtspCopy(ip, location))
  {
  }

  lemma SingleVideoSpaceFree(ip: string, path: string)
    requires SpaceFree(ip) && SpaceFree(path)
    ensures TokensSpaceFree(SingleVideo(ip, path))
  {
    RtspCopySpaceFree(ip, "\"" + path + "\"");
  }

  lemma DualWithAudioSpaceFree(ip: string, path: string)
    requires SpaceFree(ip) && SpaceFree(path)
    ensures TokensSpaceFree(DualWithAudio(ip, path))
  {
  }

  lemma MixerHeadSpaceFree()
    ensures TokensSpaceFree(MixerHead)
  {
  }

  lemma ScaledSourceSpaceFree(ip: string, pad: string)
    requires SpaceFree(ip) && SpaceFree(pad)
    ensures TokensSpaceFree(ScaledSource(ip, pad))
  {
  }

  lemma MkvSinkSpaceFree(location: string)
    requires SpaceFree(location)
    ensures TokensSpaceFree(MkvSink(location))
  {
  }

  lemma DualVideoSpaceFree(ip0: string, ip1: string, path: string)
    requires SpaceFree(ip0) && SpaceFree(ip1) && SpaceFree(path)
    ensures TokensSpaceFree(DualVideo(ip0, ip1, path))
  {
    MixerHeadSpaceFree();
    ScaledSourceSpaceFree(ip0, "mix.sink_0");
    ScaledSourceSpaceFree(ip1, "mix.sink_1");
    MkvSinkSpaceFree(path);
    ConcatSpaceFree(MixerHead, ScaledSource(ip0, "mix.sink_0"));
    ConcatSpaceFree(MixerHead + ScaledSource(ip0, "mix.sink_0"), ScaledSource(ip1, "mix.sink_1"));
    ConcatSpaceFree(MixerHead + ScaledSource(ip0, "mix.sink_0") + ScaledSource(ip1, "mix.sink_1"), MkvSink(path));
  }

  /** The choice of template reads nothing but the count and the first
      camera's audio flag; the second camera's audio flag is never read, and
      the two-camera audio template reads only the first camera. */
  lemma ChoiceIgnoresSecondCamera(cameras: seq<Camera>, other: Camera, path: string)
    requires |cameras| == 2
    ensures RecordingMode([cameras[0], Camera(cameras[1].ip, other.audio)], path) == RecordingMode(cameras, path)
    ensures cameras[0].audio ==> RecordingMode([cameras[0], other], path) == RecordingMode(cameras, path)
  {
  }
}

=== FILE: probe.dfy ===
/** The camera probe of the recording service (`isCameraAvailable`): an RTSP
    DESCRIBE handshake whose network part is an oracle outcome, and the
    classification of the described tracks into "has audio" or not. */
module Probe {
  import opened Wrappers
  import opened Errs

  /** The track kinds a DESCRIBE answer can carry. */
  datatype Track =
    | Opus | Vorbis | G711 | G722 | MPEG2Audio | MPEG4Audio
    | H264 | H265 | VP8 | VP9 | JPEG | MPEG2Video | Generic

  /** The six kinds the probe counts as audio. */
  predicate IsAudio(t: Track) {
    t.Opus? || t.Vorbis? || t.G711? || t.G722? || t.MPEG2Audio? || t.MPEG4Audio?
  }

  /** How the handshake with the camera ended: the URL did not parse, the
      connection could not be started, DESCRIBE failed, or the camera described
      its tracks. */
  datatype Handshake =
    | BadUrl(urlError: Error)
    | StartFailed(startError: Error)
    | DescribeFailed(describeError: Error)
    | Described(tracks: seq<Track>)

  /** The track scan: true at the first audio track, false when none is found. */
  function AudioFound(tracks: seq<Track>): (found: bool)
    ensures found <==> exists i :: 0 <= i < |tracks| && IsAudio(tracks[i])
  {
    if |tracks| == 0 then false
    else if IsAudio(tracks[0]) then true
    else
      var rest := AudioFound(tracks[1..]);
      assert forall i :: 1 <= i < |tracks| ==> tracks[i] == tracks[1..][i - 1];
      rest
  }

  /** `isCameraAvailable`: any handshake error is returned as is; a described
      camera is available, with the audio flag telling whether some track is an
      audio track. A camera that describes no tracks at all counts as available
      without audio. */
  function IsCameraAvailable(h: Handshake): (r: Result<bool, Error>)
    ensures r.Ok? <==> h.Described?
    ensures h.BadUrl? ==> r == Err(h.urlError)
    ensures h.StartFailed? ==> r == Err(h.startError)
    ensures h.DescribeFailed? ==> r == Err(h.describeError)
    ensures h.Described? ==> (r.value <==> exists i :: 0 <= i < |h.tracks| && IsAudio(h.tracks[i]))
  {
    match h
    case BadUrl(e) => Err(e)
    case StartFailed(e) => Err(e)
    case DescribeFailed(e) => Err(e)
    case Described(tracks) => Ok(AudioFound(tracks))
  }
}

=== FILE: recordings.dfy ===
/** The recording orchestrator (`RecordingService`): start, stop and schedule
    capture processes, and move, delete and serve finished recordings. Each
    operation is a transition over an explicit state, taking the outcomes of
    the external calls it makes (camera lookup, probe, spawn, kill, upload,
    database faults, file-system faults, the clock and the fresh id) as
    parameters, and returning Go's result pair together with the side effects
    it attempted, in order. */
module RecordingService {
  import opened Wrappers
  import opened Errs
  import opened Clock
  import opened Models
  import opened Effects
  import Probe
  import Planner
  import Storage = RecordingStorage

  /** The service: its videos directory, the process registry (`commands`),
      the persisted recordings, the files on disk and the armed timers. */
  datatype State = State(
    videosPath: string,
    commands: map<string, Process>,
    db: Storage.Db,
    files: set<string>,
    pending: seq<Deferred>)

  /** One call: the state after it, Go's result pair and the effects attempted. */
  datatype Step<T> = Step(state: State, out: T, err: Option<Error>, effects: seq<Effect>)

  const StartOp: string := "service.recordings.Start"
  const StopOp: string := "service.recordings.Stop"
  const ScheduleOp: string := "service.recordings.Schedule"
  const CameraRecordingsOp: string := "service.recordings.CameraRecordings"
  const MoveOp: string := "service.recordings.Move"
  const DeleteOp: string := "service.recordings.Delete"
  const FileOp: string := "service.recordings.Download"

  /** The outcomes of the external calls `Start` makes. */
  datatype StartIo = StartIo(
    cameraIp: string -> Result<string, Error>,
    probe: string -> Probe.Handshake,
    newId: string,
    now: Instant,
    spawn: Result<nat, Error>,
    saveFault: Option<Error>)

  /** Resolve every camera id in order, stopping at the first failed lookup. */
  function LookupAll(ids: seq<string>, cameraIp: string -> Result<string, Error>): (r: Result<seq<string>, Error>)
    ensures r.Ok? <==> forall i :: 0 <= i < |ids| ==> cameraIp(ids[i]).Ok?
    ensures r.Ok? ==> |r.value| == |ids| && forall i :: 0 <= i < |ids| ==> r.value[i] == cameraIp(ids[i]).value
    ensures r.Err? ==> exists i :: 0 <= i < |ids| && cameraIp(ids[i]) == Err(r.error)
  {
    if |ids| == 0 then Ok([])
    else
      match cameraIp(ids[0])
      case Err(e) => Err(e)
      case Ok(ip) =>
        match LookupAll(ids[1..], cameraIp)
        case Err(e) =>
          assert exists i :: 1 <= i < |ids| && cameraIp(ids[i]) == Err(e) by {
            var j :| 0 <= j < |ids[1..]| && cameraIp(ids[1..][j]) == Err(e);
            assert ids[j + 1] == ids[1..][j];
          }
          Err(e)
        case Ok(rest) =>
          assert forall i :: 1 <= i < |ids| ==> ids[i] == ids[1..][i - 1];
          Ok([ip] + rest)
  }

  /** Probe every address in order, attaching the reported audio flag; any
      handshake error makes the camera unavailable. */
  function ProbeAll(ips: seq<string>, probe: string -> Probe.Handshake): (r: Option<seq<Planner.Camera>>)
    ensures r.Some? <==> forall i :: 0 <= i < |ips| ==> Probe.IsCameraAvailable(probe(ips[i])).Ok?
    ensures r.Some? ==> |r.value| == |ips| && forall i :: 0 <= i < |ips| ==>
      r.value[i] == Planner.Camera(ips[i], Probe.IsCameraAvailable(probe(ips[i])).value)
  {
    if |ips| == 0 then Some([])
    else
      match Probe.IsCameraAvailable(probe(ips[0]))
      case Err(_) => None
      case Ok(audio) =>
        match ProbeAll(ips[1..], probe)
        case None =>
          assert exists i :: 1 <= i < |ips| && Probe.IsCameraAvailable(probe(ips[i])).Err? by {
            var j :| 0 <= j < |ips[1..]| && Probe.IsCameraAvailable(probe(ips[1..][j])).Err?;
            assert ips[j + 1] == ips[1..][j];
          }
          None
        case Some(rest) =>
          assert forall i :: 1 <= i < |ips| ==> ips[i] == ips[1..][i - 1];
          Some([Planner.Camera(ips[0], audio)] + rest)
  }

  /** `<videosPath>/<first camera id>/<record id>_<start stamp>.mkv`. */
  function RecordingPath(videosPath: string, cameraId: string, recordId: string, now: Instant): string {
    videosPath + "/" + cameraId + "/" + recordId + "_" + FileStamp(now) + ".mkv"
  }

  predicate LookupsSucceed(ids: seq<string>, io: StartIo) {
    forall i :: 0 <= i < |ids| ==> io.cameraIp(ids[i]).Ok?
  }

  predicate ProbesSucceed(ids: seq<string>, io: StartIo)
    requires LookupsSucceed(ids, io)
  {
    forall i :: 0 <= i < |ids| ==> Probe.IsCameraAvailable(io.probe(io.cameraIp(ids[i]).value)).Ok?
  }

  /** The cameras `Start` plans with: each id's address, in order, with the
      audio flag its probe reported. */
  function PlannedCameras(ids: seq<string>, io: StartIo): seq<Planner.Camera>
    requires LookupsSucceed(ids, io) && ProbesSucceed(ids, io)
  {
    seq(|ids|, i requires 0 <= i < |ids| && LookupsSucceed(ids, io) && ProbesSucceed(ids, io) =>
      Planner.Camera(io.cameraIp(ids[i]).value, Probe.IsCameraAvailable(io.probe(io.cameraIp(ids[i]).value)).value))
  }

  /** The checks `Start` makes before spawning anything: resolve the camera
      ids, probe every address, and plan the pipeline for the file path. */
  function Prepare(videosPath: string, cameraIds: seq<string>, io: StartIo): (r: Result<seq<string>, Error>)
    requires |cameraIds| > 0
    ensures !LookupsSucceed(cameraIds, io) ==> r.Err?
    ensures LookupsSucceed(cameraIds, io) && !ProbesSucceed(cameraIds, io) ==>
      r == Err(Wrapped(StartOp, CameraIsNotAvailable))
    ensures |cameraIds| > 2 ==> r.Err?
    ensures r.Ok? <==> LookupsSucceed(cameraIds, io) && ProbesSucceed(cameraIds, io) && |cameraIds| <= 2
    ensures r.Ok? ==> |r.value| >= 1 && r.value[0] == Planner.Launcher
    // the plan is the pipeline for the probed cameras, writing to the recording's path
    ensures r.Ok? ==>
      r.value == Planner.RecordingMode(PlannedCameras(cameraIds, io),
                                       RecordingPath(videosPath, cameraIds[0], io.newId, io.now)).value
  {
    match LookupAll(cameraIds, io.cameraIp)
    case Err(e) => Err(Wrapped(StartOp, e))
    case Ok(ips) =>
      match ProbeAll(ips, io.probe)
      case None => Err(Wrapped(StartOp, CameraIsNotAvailable))
      case Some(cameras) =>
        var path := RecordingPath(videosPath, cameraIds[0], io.newId, io.now);
        assert cameras == PlannedCameras(cameraIds, io);
        match Planner.RecordingMode(cameras, path)
        case Err(e) => Err(Wrapped(StartOp, e))
        case Ok(argv) => Ok(argv)
  }

  /** Spawn the planned pipeline, register it, then write the start record.
      The running pipeline creates its output file. */
  function Launch(s: State, cameraId: string, userId: int, io: StartIo, argv: seq<string>): (r: Step<string>)
    ensures r.state.pending == s.pending && r.state.videosPath == s.videosPath
    ensures io.spawn.Ok? ==> r.state.files == s.files + {RecordingPath(s.videosPath, cameraId, io.newId, io.now)}
    ensures io.spawn.Err? ==> r.err.Some? && r.state == s && r.out == "" && r.effects == [Spawn(argv)]
    ensures io.spawn.Ok? ==>
      && r.state.commands == s.commands[io.newId := Process(io.spawn.value, argv)]
      && r.out == io.newId
      && r.effects == [Spawn(argv), Persist(SaveStart(io.newId))]
      && (r.err.Some? <==> io.saveFault.Some? || io.newId in s.db.rows)
      && (r.err.Some? ==> r.err == Some(WriteToDB) && r.state.db == s.db)
      && (r.err.None? ==> r.state.db.rows == s.db.rows[io.newId := Storage.Row(userId, cameraId, io.now, None,
            RecordingPath(s.videosPath, cameraId, io.newId, io.now), false)])
  {
    match io.spawn
    case Err(e) => Step(s, "", Some(Wrapped(StartOp, e)), [Spawn(argv)])
    case Ok(pid) =>
      var commands := s.commands[io.newId := Process(pid, argv)];
      var path := RecordingPath(s.videosPath, cameraId, io.newId, io.now);
      var rec := Recording(io.newId, "", path, userId, io.now, ZeroTime, false);
      var (db, saved) := Storage.Start(s.db, rec, cameraId, io.saveFault);
      var effects := [Spawn(argv), Persist(SaveStart(io.newId))];
      var files := s.files + {path};
      if saved.Fail? then Step(s.(commands := commands, files := files), io.newId, Some(WriteToDB), effects)
      else Step(s.(commands := commands, db := db, files := files), io.newId, None, effects)
  }

  /** `Start`. The source indexes the first camera id unguarded, so an empty
      list panics; a caller must pass at least one id. */
  function Start(s: State, cameraIds: seq<string>, userId: int, io: StartIo): (r: Step<string>)
    requires |cameraIds| > 0
    // a failed lookup, probe or camera count leaves no trace
    ensures !LookupsSucceed(cameraIds, io) ==> r.err.Some? && r.state == s && r.effects == [] && r.out == ""
    ensures LookupsSucceed(cameraIds, io) && !ProbesSucceed(cameraIds, io) ==>
      r.err == Some(Wrapped(StartOp, CameraIsNotAvailable)) && r.state == s && r.effects == [] && r.out == ""
    ensures |cameraIds| > 2 ==> r.err.Some? && r.state == s && r.effects == [] && r.out == ""
    // nothing is registered unless the spawn succeeded
    ensures r.state.commands == s.commands || (io.spawn.Ok? && r.state.commands.Keys == s.commands.Keys + {io.newId})
    ensures io.spawn.Err? ==> r.err.Some? && r.state == s && r.out == ""
    ensures r.state.pending == s.pending && r.state.videosPath == s.videosPath
    // only the spawned pipeline's output file appears
    ensures r.state.files == s.files ||
      (io.spawn.Ok? && r.state.files == s.files + {RecordingPath(s.videosPath, cameraIds[0], io.newId, io.now)})
    // a spawned process stays registered even when its record is not written
    ensures Spawns(r.effects) && io.spawn.Ok? ==>
      && io.newId in r.state.commands
      && r.state.commands[io.newId].pid == io.spawn.value
      && |r.state.commands[io.newId].argv| >= 1 && r.state.commands[io.newId].argv[0] == Planner.Launcher
      && r.out == io.newId
      && r.effects == [Spawn(r.state.commands[io.newId].argv), Persist(SaveStart(io.newId))]
      && (r.err.Some? <==> io.saveFault.Some? || io.newId in s.db.rows)
      && (r.err.Some? ==> r.err == Some(WriteToDB) && r.state.db == s.db)
    ensures r.err.None? ==>
      && io.spawn.Ok? && r.out == io.newId
      && r.state.db.rows == s.db.rows[io.newId := Storage.Row(userId, cameraIds[0], io.now, None,
           RecordingPath(s.videosPath, cameraIds[0], io.newId, io.now), false)]
  {
    match Prepare(s.videosPath, cameraIds, io)
    case Err(e) => Step(s, "", Some(e), [])
    case Ok(argv) => Launch(s, cameraIds[0], userId, io, argv)
  }

  /** What a successful spawn runs: the pipeline planned for the probed
      cameras, writing to the path the start record stores. */
  lemma StartSpawnsThePlan(s: State, cameraIds: seq<string>, userId: int, io: StartIo)
    requires 0 < |cameraIds| <= 2 && LookupsSucceed(cameraIds, io) && ProbesSucceed(cameraIds, io)
    requires io.spawn.Ok?
    ensures var r := Start(s, cameraIds, userId, io);
      var path := RecordingPath(s.videosPath, cameraIds[0], io.newId, io.now);
      var argv := Planner.RecordingMode(PlannedCameras(cameraIds, io), path).value;
      && r.state.commands[io.newId] == Process(io.spawn.value, argv)
      && r.effects[0] == Spawn(argv)
      && path in r.state.files
      && (r.err.None? ==> r.state.db.rows[io.newId].filePath == path)
  {
    var plan := Prepare(s.videosPath, cameraIds, io);
    assert plan.Ok?;
    assert Start(s, cameraIds, userId, io) == Launch(s, cameraIds[0], userId, io, plan.value);
  }

  /** A recording started without error is served for download: when every
      step of the start succeeds, and with no read or stat fault, `File`
      returns the path its pipeline writes to. */
  lemma StartedRecordingIsServed(s: State, cameraIds: seq<string>, userId: int, io: StartIo, fio: FileIo)
    requires 0 < |cameraIds| <= 2 && cameraIds[0] in s.db.cameraIps
    requires LookupsSucceed(cameraIds, io) && ProbesSucceed(cameraIds, io)
    requires io.spawn.Ok? && io.saveFault.None? && io.newId !in s.db.rows
    requires fio.readFault.None? && fio.statFault.None?
    ensures var started := Start(s, cameraIds, userId, io);
      var r := File(started.state, io.newId, fio);
      && started.err.None?
      && r.err.None?
      && r.out == RecordingPath(s.videosPath, cameraIds[0], io.newId, io.now)
  {
    var plan := Prepare(s.videosPath, cameraIds, io);
    assert Start(s, cameraIds, userId, io) == Launch(s, cameraIds[0], userId, io, plan.value);
  }

  /** The outcomes of the external calls `Stop` makes: the kill (an OS error
      message when it fails), the clock and the driver fault of the stop write. */
  datatype StopIo = StopIo(kill: Option<string>, now: Instant, writeFault: Option<Error>)

  /** `Stop`: kill the registered process, then write the stop time. The
      registry entry is never removed, so a recording can be stopped again. */
  function Stop(s: State, recordId: string, io: StopIo): (r: Step<()>)
    ensures r.state.commands == s.commands && r.state.files == s.files
    ensures r.state.pending == s.pending && r.state.videosPath == s.videosPath
    ensures recordId !in s.commands ==>
      r.err == Some(Wrapped(StopOp, RecordNotFound)) && r.state == s && r.effects == []
    ensures recordId in s.commands && io.kill.Some? ==>
      r.err == Some(Wrapped(StopOp, Failure(io.kill.value))) && r.state == s && r.effects == [Kill(recordId)]
    ensures recordId in s.commands && io.kill.None? ==>
      && r.effects == [Kill(recordId), Persist(SaveStop(recordId))]
      && (r.err.None? <==> io.writeFault.None? && recordId in s.db.rows)
      && (r.err.Some? ==> r.err == Some(WriteToDB) && r.state == s)
    ensures r.err.None? ==>
      && recordId in s.commands && recordId in s.db.rows
      && r.state.db.rows == s.db.rows[recordId := s.db.rows[recordId].(stopTime := Some(io.now))]
  {
    if recordId !in s.commands then Step(s, (), Some(Wrapped(StopOp, RecordNotFound)), [])
    else if io.kill.Some? then Step(s, (), Some(Wrapped(StopOp, Failure(io.kill.value))), [Kill(recordId)])
    else
      var effects := [Kill(recordId), Persist(SaveStop(recordId))];
      var (db, stopped) := Storage.Stop(s.db, recordId, io.now, io.writeFault);
      if stopped.Fail? then Step(s, (), Some(WriteToDB), effects)
      else Step(s.(db := db), (), None, effects)
  }

  /** Stopping never unregisters: after a stop, whatever its outcome, a second
      stop of the same recording reaches the kill again. */
  lemma SecondStopKillsAgain(s: State, recordId: string, first: StopIo, second: StopIo)
    requires recordId in s.commands
    ensures var r := Stop(Stop(s, recordId, first).state, recordId, second);
      |r.effects| >= 1 && r.effects[0] == Kill(recordId) && r.err != Some(Wrapped(StopOp, RecordNotFound))
  {
  }

  /** The outcomes `Schedule` depends on: the clock and `time.ParseDuration`
      on the duration text, which fails with a plain message. */
  datatype ScheduleIo = ScheduleIo(now: Instant, length: Result<Duration, string>)

  /** `Schedule`: refuse a start time in the past, parse the duration, then arm
      a deferred start after the delay. Nothing else happens now. */
  function Schedule(s: State, startTime: Instant, cameraIds: seq<string>, userId: int, io: ScheduleIo): (r: Step<()>)
    ensures r.err == Some(Wrapped(ScheduleOp, InvalidStartTime)) <==> Earlier(startTime, io.now)
    ensures !Earlier(startTime, io.now) && io.length.Err? ==> r.err == Some(Wrapped(ScheduleOp, Failure(io.length.error)))
    ensures r.err.Some? ==> r.state == s && r.effects == []
    ensures r.err.None? <==> !Earlier(startTime, io.now) && io.length.Ok?
    ensures r.err.None? ==>
      var armed := DeferredStart(cameraIds, userId, Until(io.now, startTime), io.length.value);
      && armed.delay >= 0
      && (armed.delay == 0 <==> startTime == io.now)
      && r.state == s.(pending := s.pending + [armed])
      && r.effects == [Arm(armed)]
  {
    var delay := Until(io.now, startTime);
    SubSign(startTime, io.now);
    if delay < 0 then Step(s, (), Some(Wrapped(ScheduleOp, InvalidStartTime)), [])
    else
      match io.length
      case Err(msg) => Step(s, (), Some(Wrapped(ScheduleOp, Failure(msg))), [])
      case Ok(length) =>
        var armed := DeferredStart(cameraIds, userId, delay, length);
        Step(s.(pending := s.pending + [armed]), (), None, [Arm(armed)])
  }

  /** `CameraRecordings`: the storage page, its error wrapped; no state changes. */
  function CameraRecordings(s: State, cameraId: string, limit: int, offset: int, userId: int,
                            order: seq<string>, fault: Option<Error>): (r: Step<seq<Recording>>)
    requires Storage.IsEnumeration(order, Storage.Matching(s.db, cameraId, userId))
    ensures r.state == s && r.effects == []
    ensures r.err.None? <==> fault.None? && limit >= 0 && offset >= 0
    ensures r.err.Some? ==> r.out == [] && r.err.value.Wrapped? && r.err.value.op == CameraRecordingsOp
    ensures fault.Some? ==> r.err.Some? && Is(r.err.value, fault.value)
    ensures r.err.None? ==>
      && |r.out| <= limit
      && forall i :: 0 <= i < |r.out| ==> r.out[i].recordingId in Storage.Matching(s.db, cameraId, userId)
  {
    match Storage.CameraRecordings(s.db, cameraId, limit, offset, userId, order, fault)
    case Err(e) => Step(s, [], Some(Wrapped(CameraRecordingsOp, e)), [])
    case Ok(recs) => Step(s, recs, None, [])
  }

  /** The outcomes of the external calls `Move` makes: the driver fault of the
      row read, the video service's upload outcome and the driver fault of the
      moved-flag write. */
  datatype MoveIo = MoveIo(readFault: Option<Error>, upload: Outcome<Error>, writeFault: Option<Error>)

  /** `Move`: read the recording, hand it to the video service, then mark the
      row moved. The flag is written only after the upload succeeded. */
  function Move(s: State, recordId: string, io: MoveIo): (r: Step<()>)
    ensures r.state.commands == s.commands && r.state.files == s.files
    ensures r.state.pending == s.pending && r.state.videosPath == s.videosPath
    ensures Storage.Recording(s.db, recordId, io.readFault).Err? ==>
      && r.err == Some(Wrapped(MoveOp, Storage.Recording(s.db, recordId, io.readFault).error))
      && r.state == s && r.effects == []
    ensures Storage.Recording(s.db, recordId, io.readFault).Ok? && io.upload.Fail? ==>
      r.err == Some(Wrapped(MoveOp, io.upload.error)) && r.state == s && r.effects == [Upload(recordId)]
    ensures Storage.Recording(s.db, recordId, io.readFault).Ok? && io.upload.Pass? ==>
      && r.effects == [Upload(recordId), Persist(MarkMoved(recordId))]
      && (r.err.Some? ==> r.err == Some(WriteToDB) && r.state == s)
    ensures r.err.None? <==> io.readFault.None? && Storage.Visible(s.db, recordId) && io.upload.Pass? && io.writeFault.None?
    ensures r.err.None? ==>
      r.state.db.rows == s.db.rows[recordId := s.db.rows[recordId].(isMoved := true)]
    ensures r.err.Some? ==> r.state == s
  {
    match Storage.Recording(s.db, recordId, io.readFault)
    case Err(e) => Step(s, (), Some(Wrapped(MoveOp, e)), [])
    case Ok(rec) =>
      match io.upload
      case Fail(e) => Step(s, (), Some(Wrapped(MoveOp, e)), [Upload(recordId)])
      case Pass =>
        var effects := [Upload(recordId), Persist(MarkMoved(recordId))];
        var (db, marked) := Storage.Move(s.db, recordId, io.writeFault);
        if marked.Fail? then Step(s, (), Some(WriteToDB), effects)
        else Step(s.(db := db), (), None, effects)
  }

  /** The message `os.Remove` and `os.Stat` report for a missing file. */
  function NoSuchFile(verb: string, path: string): Error {
    Failure(verb + " " + path + ": no such file or directory")
  }

  /** `os.Remove`: fails with the injected fault, or because the file is not
      there; otherwise the file is gone. */
  function Remove(files: set<string>, path: string, fault: Option<string>): (r: Result<set<string>, Error>)
    ensures r.Ok? <==> fault.None? && path in files
    ensures r.Ok? ==> r.value == files - {path} && path !in r.value
    ensures fault.None? && path !in files ==> r == Err(NoSuchFile("remove", path))
  {
    if fault.Some? then Err(Failure(fault.value))
    else if path !in files then Err(NoSuchFile("remove", path))
    else Ok(files - {path})
  }

  /** The outcomes of the external calls `Delete` makes: the driver fault of
      the row read, an OS fault of the unlink, and the driver fault of the row
      delete. */
  datatype DeleteIo = DeleteIo(readFault: Option<Error>, removeFault: Option<string>, deleteFault: Option<Error>)

  /** `Delete`: read the recording; unless it was moved, remove its file;
      then delete the row. A moved recording's file is never touched, and the
      row goes only after its local file did. */
  function Delete(s: State, recordId: string, io: DeleteIo): (r: Step<()>)
    ensures r.state.commands == s.commands && r.state.pending == s.pending && r.state.videosPath == s.videosPath
    ensures Storage.Recording(s.db, recordId, io.readFault).Err? ==>
      && r.err == Some(Wrapped(DeleteOp, Storage.Recording(s.db, recordId, io.readFault).error))
      && r.state == s && r.effects == []
    ensures Storage.Recording(s.db, recordId, io.readFault).Ok? ==>
      var row := s.db.rows[recordId];
      && (row.isMoved ==> r.state.files == s.files && r.effects == [Persist(DeleteRow(recordId))])
      && (!row.isMoved ==> |r.effects| >= 1 && r.effects[0] == Unlink(row.filePath))
      && (!row.isMoved && Remove(s.files, row.filePath, io.removeFault).Err? ==>
            r.err == Some(Wrapped(DeleteOp, Remove(s.files, row.filePath, io.removeFault).error))
            && r.state == s && r.effects == [Unlink(row.filePath)])
      && (!row.isMoved && Remove(s.files, row.filePath, io.removeFault).Ok? ==>
            r.state.files == s.files - {row.filePath}
            && r.effects == [Unlink(row.filePath), Persist(DeleteRow(recordId))])
    ensures r.err.None? <==>
      && io.readFault.None? && Storage.Visible(s.db, recordId)
      && (s.db.rows[recordId].isMoved || (io.removeFault.None? && s.db.rows[recordId].filePath in s.files))
      && io.deleteFault.None?
    ensures r.err.None? ==>
      && r.state.db.rows.Keys == s.db.rows.Keys - {recordId}
      && forall id :: id in r.state.db.rows ==> r.state.db.rows[id] == s.db.rows[id]
    ensures r.err.Some? ==> r.state.db == s.db && r.err.value.Wrapped? && r.err.value.op == DeleteOp
  {
    match Storage.Recording(s.db, recordId, io.readFault)
    case Err(e) => Step(s, (), Some(Wrapped(DeleteOp, e)), [])
    case Ok(rec) =>
      var unlinked := if rec.isMoved then Ok(s.files) else Remove(s.files, rec.filePath, io.removeFault);
      var tried := if rec.isMoved then [] else [Unlink(rec.filePath)];
      match unlinked
      case Err(e) => Step(s, (), Some(Wrapped(DeleteOp, e)), tried)
      case Ok(files) =>
        var effects := tried + [Persist(DeleteRow(recordId))];
        var (db, deleted) := Storage.Delete(s.db, recordId, io.deleteFault);
        if deleted.Fail? then Step(s.(files := files), (), Some(Wrapped(DeleteOp, deleted.error)), effects)
        else Step(s.(files := files, db := db), (), None, effects)
  }

  /** The outcomes of the external calls `File` makes: the driver fault of the
      row read, an OS fault of the stat, and the driver fault of the clean-up
      delete. */
  datatype FileIo = FileIo(readFault: Option<Error>, statFault: Option<string>, deleteFault: Option<Error>)

  /** `File` (the download path): the local file of a recording that was not
      moved and is still on disk. A recording whose file is gone loses its row
      on the way, and the caller sees `ErrFileNotFound` whether or not that
      delete worked. */
  function File(s: State, recordId: string, io: FileIo): (r: Step<string>)
    ensures r.state.commands == s.commands && r.state.files == s.files
    ensures r.state.pending == s.pending && r.state.videosPath == s.videosPath
    ensures Storage.Recording(s.db, recordId, io.readFault).Err? ==>
      && r.err == Some(Wrapped(FileOp, Storage.Recording(s.db, recordId, io.readFault).error))
      && r.state == s && r.effects == [] && r.out == ""
    ensures Storage.Recording(s.db, recordId, io.readFault).Ok? && s.db.rows[recordId].isMoved ==>
      r.err == Some(Wrapped(FileOp, FileAlreadyMoved)) && r.state == s && r.effects == [] && r.out == ""
    ensures Storage.Recording(s.db, recordId, io.readFault).Ok? && !s.db.rows[recordId].isMoved
            && (io.statFault.Some? || s.db.rows[recordId].filePath !in s.files) ==>
      && r.err == Some(Wrapped(FileOp, FileNotFound)) && r.out == ""
      && r.effects == [Persist(DeleteRow(recordId))]
      && r.state.db == Storage.Delete(s.db, recordId, io.deleteFault).0
    ensures r.err.None? <==>
      && io.readFault.None? && Storage.Visible(s.db, recordId) && !s.db.rows[recordId].isMoved
      && io.statFault.None? && s.db.rows[recordId].filePath in s.files
    ensures r.err.None? ==>
      r.out == s.db.rows[recordId].filePath && r.out in s.files && r.state == s && r.effects == []
  {
    match Storage.Recording(s.db, recordId, io.readFault)
    case Err(e) => Step(s, "", Some(Wrapped(FileOp, e)), [])
    case Ok(rec) =>
      if rec.isMoved then Step(s, "", Some(Wrapped(FileOp, FileAlreadyMoved)), [])
      else if io.statFault.Some? || rec.filePath !in s.files then
        var (db, _) := Storage.Delete(s.db, recordId, io.deleteFault);
        Step(s.(db := db), "", Some(Wrapped(FileOp, FileNotFound)), [Persist(DeleteRow(recordId))])
      else Step(s, rec.filePath, None, [])
  }

  /** What a timer firing does. A deferred start over no cameras indexes the
      empty list in `Start` and panics inside the timer goroutine, which ends
      the whole process. */
  datatype Firing = Ran(state: State, effects: seq<Effect>) | Panicked

  /** The outcomes of the calls the fired action makes. */
  datatype FireIo = FireIo(start: StartIo, stop: StopIo)

  /** Timer `i` fires. A deferred start runs `Start` and arms the deferred stop
      only when `Start` returned no error; a deferred stop runs `Stop`, whose
      error is only logged. */
  function Fire(s: State, i: nat, io: FireIo): (r: Firing)
    requires i < |s.pending|
    ensures s.pending[i].DeferredStart? ==> (r.Panicked? <==> |s.pending[i].cameras| == 0)
    ensures s.pending[i].DeferredStop? ==> r.Ran? && r.state.commands == s.commands
    ensures r.Ran? ==> s.commands.Keys <= r.state.commands.Keys && r.state.videosPath == s.videosPath
    ensures r.Ran? ==>
      || r.state.pending == Without(s.pending, i)
      || (s.pending[i].DeferredStart? &&
          var stop := DeferredStop(io.start.newId, s.pending[i].length);
          r.state.pending == Without(s.pending, i) + [stop] &&
          |r.effects| >= 1 && r.effects[|r.effects| - 1] == Arm(stop))
  {
    var rest := s.(pending := Without(s.pending, i));
    match s.pending[i]
    case DeferredStart(cameras, userId, _, length) =>
      if |cameras| == 0 then Panicked
      else
        var started := Start(rest, cameras, userId, io.start);
        if started.err.Some? then Ran(started.state, started.effects)
        else
          var stop := DeferredStop(started.out, length);
          Ran(started.state.(pending := started.state.pending + [stop]), started.effects + [Arm(stop)])
    case DeferredStop(recordId, _) =>
      var stopped := Stop(rest, recordId, io.stop);
      Ran(stopped.state, stopped.effects)
  }

  /** A scheduled recording whose start succeeds is stopped later: the deferred
      stop for its id and length is armed. */
  lemma ScheduledStartArmsStop(s: State, i: nat, io: FireIo)
    requires i < |s.pending| && s.pending[i].DeferredStart? && 0 < |s.pending[i].cameras| <= 2
    requires LookupsSucceed(s.pending[i].cameras, io.start) && ProbesSucceed(s.pending[i].cameras, io.start)
    requires io.start.spawn.Ok? && io.start.saveFault.None? && io.start.newId !in s.db.rows
    ensures var r := Fire(s, i, io);
      && r.Ran?
      && io.start.newId in r.state.commands
      && DeferredStop(io.start.newId, s.pending[i].length) in r.state.pending
  {
  }

  /** A deferred stop, when it fires, stops its recording: it kills the
      registered process and, when the kill and the write succeed, the row
      gets the firing time as its stop time. */
  lemma DeferredStopStopsRecording(s: State, i: nat, io: FireIo)
    requires i < |s.pending| && s.pending[i].DeferredStop?
    ensures var r := Fire(s, i, io);
      var id := s.pending[i].recordId;
      && r.Ran?
      && r.state.pending == Without(s.pending, i)
      && r.state.commands == s.commands
      && (id !in s.commands ==> r.effects == [] && r.state.db == s.db)
      && (id in s.commands ==> |r.effects| >= 1 && r.effects[0] == Kill(id))
      && (id in s.commands && io.stop.kill.None? ==> r.effects == [Kill(id), Persist(SaveStop(id))])
      && (id in s.commands && id in s.db.rows && io.stop.kill.None? && io.stop.writeFault.None? ==>
            r.state.db.rows[id].stopTime == Some(io.stop.now))
  {
  }

  /** A deferred start arms its deferred stop exactly when every step of the
      start succeeded: the cameras resolve and answer, the pipeline spawns and
      the start record is written. */
  lemma ScheduledStopArmedIff(s: State, i: nat, io: FireIo)
    requires i < |s.pending| && s.pending[i].DeferredStart? && |s.pending[i].cameras| > 0
    ensures var r := Fire(s, i, io);
      && r.Ran?
      && (r.state.pending != Without(s.pending, i) <==>
            && LookupsSucceed(s.pending[i].cameras, io.start) && ProbesSucceed(s.pending[i].cameras, io.start)
            && |s.pending[i].cameras| <= 2
            && io.start.spawn.Ok? && io.start.saveFault.None? && io.start.newId !in s.db.rows)
  {
    var rest := s.(pending := Without(s.pending, i));
    var started := Start(rest, s.pending[i].cameras, s.pending[i].userId, io.start);
    assert rest.db == s.db && rest.videosPath == s.videosPath;
  }

  /** The scheduled-recording leak: when the deferred start spawns the pipeline
      but the start record is not written, `Start` returns `ErrWriteToDB`, no
      deferred stop is armed, and the spawned process stays registered with
      nothing left to stop it. */
  lemma {:induction false} ScheduledSaveFailureLeaks(s: State, i: nat, io: FireIo)
    requires i < |s.pending| && s.pending[i].DeferredStart? && 0 < |s.pending[i].cameras| <= 2
    requires LookupsSucceed(s.pending[i].cameras, io.start) && ProbesSucceed(s.pending[i].cameras, io.start)
    requires io.start.spawn.Ok? && io.start.saveFault.Some?
    requires forall j :: 0 <= j < |s.pending| ==> s.pending[j] != DeferredStop(io.start.newId, s.pending[i].length)
    ensures var r := Fire(s, i, io);
      && r.Ran?
      && io.start.newId in r.state.commands
      && forall j :: 0 <= j < |r.state.pending| ==> r.state.pending[j] != DeferredStop(io.start.newId, s.pending[i].length)
  {
    var rest := s.(pending := Without(s.pending, i));
    var cameras := s.pending[i].cameras;
    var plan := Prepare(rest.videosPath, cameras, io.start);
    assert plan.Ok?;
    var started := Launch(rest, cameras[0], s.pending[i].userId, io.start, plan.value);
    assert Start(rest, cameras, s.pending[i].userId, io.start) == started;
    assert started.err == Some(WriteToDB);
    assert started.state.pending == Without(s.pending, i);
  }

  /** One request to the service, or one timer firing, with the outcomes of
      the external calls it makes. */
  datatype Call =
    | StartCall(cameraIds: seq<string>, userId: int, startIo: StartIo)
    | StopCall(recordId: string, stopIo: StopIo)
    | ScheduleCall(startTime: Instant, cameras: seq<string>, owner: int, scheduleIo: ScheduleIo)
    | MoveCall(movedId: string, moveIo: MoveIo)
    | DeleteCall(deletedId: string, deleteIo: DeleteIo)
    | FileCall(fileId: string, fileIo: FileIo)
    | FireCall(index: nat, fireIo: FireIo)
    | FileLost(lostPath: string)

  /** The state after one call; `None` when the process dies. A request to
      start over no cameras panics inside its handler, which the HTTP server
      recovers from, so the state is unchanged; the same panic inside a timer
      goroutine ends the process, as does naming a timer that is not armed.
      `FileLost` is a file removed from disk by something other than the
      service. */
  function Apply(s: State, c: Call): Option<State> {
    match c
    case StartCall(ids, userId, io) => if |ids| == 0 then Some(s) else Some(Start(s, ids, userId, io).state)
    case FileLost(path) => Some(s.(files := s.files - {path}))
    case StopCall(id, io) => Some(Stop(s, id, io).state)
    case ScheduleCall(t, ids, userId, io) => Some(Schedule(s, t, ids, userId, io).state)
    case MoveCall(id, io) => Some(Move(s, id, io).state)
    case DeleteCall(id, io) => Some(Delete(s, id, io).state)
    case FileCall(id, io) => Some(File(s, id, io).state)
    case FireCall(i, io) =>
      if i >= |s.pending| then None
      else match Fire(s, i, io)
        case Panicked => None
        case Ran(t, _) => Some(t)
  }

  /** The state after a sequence of calls, if the process survives them. */
  function Run(s: State, calls: seq<Call>): Option<State>
    decreases |calls|
  {
    if |calls| == 0 then Some(s)
    else match Apply(s, calls[0])
      case None => None
      case Some(t) => Run(t, calls[1..])
  }

  lemma ApplyKeepsRegistry(s: State, c: Call)
    ensures Apply(s, c).Some? ==> s.commands.Keys <= Apply(s, c).value.commands.Keys
  {
  }

  /** No call ever unregisters a process: the registry only grows over any run
      of the service. */
  lemma {:induction false} RegistryNeverShrinks(s: State, calls: seq<Call>)
    ensures Run(s, calls).Some? ==> s.commands.Keys <= Run(s, calls).value.commands.Keys
    decreases |calls|
  {
    if |calls| > 0 && Apply(s, calls[0]).Some? {
      ApplyKeepsRegistry(s, calls[0]);
      RegistryNeverShrinks(Apply(s, calls[0]).value, calls[1..]);
    }
  }

  /** Whether a call may remove the row `id`: only `Delete` and `File` delete rows. */
  predicate Removes(c: Call, id: string) {
    (c.DeleteCall? && c.deletedId == id) || (c.FileCall? && c.fileId == id)
  }

  predicate MovedRow(s: State, id: string) {
    id in s.db.rows && s.db.rows[id].isMoved
  }

  lemma ApplyKeepsMoved(s: State, c: Call, id: string)
    requires MovedRow(s, id) && !Removes(c, id)
    ensures Apply(s, c).Some? ==> MovedRow(Apply(s, c).value, id)
  {
    match c
    case DeleteCall(d, io) =>
      var r := Delete(s, d, io);
      if r.err.None? {
        assert id in r.state.db.rows;
      }
    case FireCall(i, io) =>
      if i < |s.pending| {
        FireKeepsMoved(s, i, io, id);
      }
    case StartCall(ids, userId, io) =>
      if |ids| > 0 {
        StartKeepsMoved(s, ids, userId, io, id);
      }
    case _ =>
  }

  lemma StartKeepsMoved(s: State, ids: seq<string>, userId: int, io: StartIo, id: string)
    requires MovedRow(s, id) && |ids| > 0
    ensures MovedRow(Start(s, ids, userId, io).state, id)
  {
  }

  lemma FireKeepsMoved(s: State, i: nat, io: FireIo, id: string)
    requires MovedRow(s, id) && i < |s.pending|
    ensures Fire(s, i, io).Ran? ==> MovedRow(Fire(s, i, io).state, id)
  {
    var rest := s.(pending := Without(s.pending, i));
    match s.pending[i]
    case DeferredStart(cameras, userId, _, _) =>
      if |cameras| > 0 {
        StartKeepsMoved(rest, cameras, userId, io.start, id);
      }
    case DeferredStop(_, _) =>
  }

  /** A moved recording stays moved: no call other than a delete of that row
      writes its flag back or drops it. */
  lemma {:induction false} MovedStaysMoved(s: State, calls: seq<Call>, id: string)
    requires MovedRow(s, id)
    requires forall k :: 0 <= k < |calls| ==> !Removes(calls[k], id)
    ensures Run(s, calls).Some? ==> MovedRow(Run(s, calls).value, id)
    decreases |calls|
  {
    if |calls| > 0 && Apply(s, calls[0]).Some? {
      ApplyKeepsMoved(s, calls[0], id);
      MovedStaysMoved(Apply(s, calls[0]).value, calls[1..], id);
    }
  }
}

=== FILE: records.dfy ===
/** The older record orchestrator (`RecordService`). It is still in the
    tree, but the server's `main` never constructs it. Camera addresses come
    straight from the request, availability is a TCP dial, the record row is
    created before planning, and a failed start-time write is swallowed. Persistence is a collaborator whose
    outcomes are parameters, like every other external call. */
module RecordService {
  import opened Wrappers
  import opened Errs
  import opened Clock
  import opened Effects
  import opened Text
  import Planner

  /** The service: its videos directory, the process registry and the armed
      timers. Rows live behind the saver and are not part of this state. */
  datatype State = State(videosPath: string, commands: map<string, Process>, pending: seq<Deferred>)

  datatype Step<T> = Step(state: State, out: T, err: Option<Error>, effects: seq<Effect>)

  /** `Start` and `Stop` both label their errors with the start operation. */
  const StartOp: string := "service.camera.Start"
  const ScheduleOp: string := "service.camera.Schedule"

  /** The audio branch of the legacy composite: the given camera decoded,
      converted and Vorbis-encoded into the muxer. */
  function AudioSource(ip: string): seq<string> {
    ["uridecodebin", "uri=" + ip, "!", "audioconvert", "!", "vorbisenc", "!", "queue", "!", "mux."]
  }

  /** The legacy templates: one camera copied as is, with the path unquoted;
      two cameras side by side, with the audio always taken from the first. */
  function Template(ips: seq<string>, path: string): Option<seq<string>> {
    if |ips| == 1 then Some(Planner.RtspCopy(ips[0], path))
    else if |ips| == 2 then
      Some(Planner.MixerHead + Planner.ScaledSource(ips[0], "mix.sink_0") + Planner.ScaledSource(ips[1], "mix.sink_1")
           + AudioSource(ips[0]) + Planner.MkvSink(path))
    else None
  }

  /** The legacy `recordingMode`: the formatted command line split on spaces. */
  function RecordingMode(ips: seq<string>, path: string): (r: Result<seq<string>, Error>)
    ensures r.Err? <==> |ips| != 1 && |ips| != 2
    ensures r.Err? ==> r.error == Planner.CountError
    ensures r.Ok? ==> |r.value| >= 1 && r.value[0] == Planner.Launcher
  {
    match Template(ips, path)
    case None => Err(Planner.CountError)
    case Some(tokens) =>
      SplitJoinHead(tokens, ' ');
      Ok(Split(Join(tokens, " "), ' '))
  }

  lemma AudioSourceSpaceFree(ip: string)
    requires Planner.SpaceFree(ip)
    ensures Planner.TokensSpaceFree(AudioSource(ip))
  {
  }

  /** With space-free addresses and path every template word is one argument. */
  lemma RecordingModeTokens(ips: seq<string>, path: string)
    requires |ips| == 1 || |ips| == 2
    requires forall i :: 0 <= i < |ips| ==> Planner.SpaceFree(ips[i])
    requires Planner.SpaceFree(path)
    ensures RecordingMode(ips, path) == Ok(Template(ips, path).value)
  {
    var tokens := Template(ips, path).value;
    assert Planner.SpaceFree(ips[0]);
    if |ips| == 1 {
      Planner.RtspCopySpaceFree(ips[0], path);
    } else {
      assert Planner.SpaceFree(ips[1]);
      var a := Planner.MixerHead + Planner.ScaledSource(ips[0], "mix.sink_0");
      var b := a + Planner.ScaledSource(ips[1], "mix.sink_1");
      var c := b + AudioSource(ips[0]);
      Planner.MixerHeadSpaceFree();
      Planner.ScaledSourceSpaceFree(ips[0], "mix.sink_0");
      Planner.ScaledSourceSpaceFree(ips[1], "mix.sink_1");
      AudioSourceSpaceFree(ips[0]);
      Planner.MkvSinkSpaceFree(path);
      Planner.ConcatSpaceFree(Planner.MixerHead, Planner.ScaledSource(ips[0], "mix.sink_0"));
      Planner.ConcatSpaceFree(a, Planner.ScaledSource(ips[1], "mix.sink_1"));
      Planner.ConcatSpaceFree(b, AudioSource(ips[0]));
      Planner.ConcatSpaceFree(c, Planner.MkvSink(path));
    }
    SplitJoin(tokens, ' ');
  }

  /** The legacy composite has 49 words and names the first camera twice: as
      the left video source (word 15) and as the only audio source (word 35);
      the path (word 48) is not quoted. The single template leaves the path
      unquoted too. */
  lemma TemplateShape(ips: seq<string>, path: string)
    requires |ips| == 1 || |ips| == 2
    ensures var argv := Template(ips, path).value;
      && (|ips| == 1 ==> |argv| == 12 && argv[2] == "location=" + ips[0] && argv[11] == "location=" + path)
      && (|ips| == 2 ==>
            && |argv| == 49
            && argv[15] == "uri=" + ips[0] && argv[25] == "uri=" + ips[1]
            && argv[35] == "uri=" + ips[0] && argv[48] == "location=" + path)
  {
    if |ips| == 2 {
      var a := Planner.MixerHead + Planner.ScaledSource(ips[0], "mix.sink_0");
      assert |a| == 24 && a[15] == "uri=" + ips[0];
      var b := a + Planner.ScaledSource(ips[1], "mix.sink_1");
      assert |b| == 34 && b[25] == "uri=" + ips[1] && b[15] == a[15];
      var c := b + AudioSource(ips[0]);
      assert |c| == 44 && c[35] == "uri=" + ips[0] && c[25] == b[25] && c[15] == b[15];
    }
  }

  /** The outcomes of the external calls `Start` makes: a TCP dial per address
      (an OS error message when it fails), the saver's `Create`, the clock,
      the spawn and the driver fault of the start-time write. */
  datatype StartIo = StartIo(
    dial: string -> Option<string>,
    create: Result<string, Error>,
    now: Instant,
    spawn: Result<nat, Error>,
    saveFault: Option<Error>)

  /** Dial every address in order; the first failed dial is the error. The
      check never reports an unreachable camera as merely unavailable, so
      `ErrCameraIsNotAvailable` cannot come out of it. */
  function DialAll(ips: seq<string>, dial: string -> Option<string>): (r: Outcome<Error>)
    ensures r.Pass? <==> forall i :: 0 <= i < |ips| ==> dial(ips[i]).None?
    ensures r.Fail? ==> exists i :: 0 <= i < |ips| && dial(ips[i]).Some? && r.error == Failure(dial(ips[i]).value)
  {
    if |ips| == 0 then Pass
    else if dial(ips[0]).Some? then Fail(Failure(dial(ips[0]).value))
    else
      match DialAll(ips[1..], dial)
      case Pass =>
        assert forall i :: 1 <= i < |ips| ==> ips[i] == ips[1..][i - 1];
        Pass
      case Fail(e) =>
        assert exists i :: 1 <= i < |ips| && dial(ips[i]).Some? && e == Failure(dial(ips[i]).value) by {
          var j :| 0 <= j < |ips[1..]| && dial(ips[1..][j]).Some? && e == Failure(dial(ips[1..][j]).value);
          assert ips[j + 1] == ips[1..][j];
        }
        Fail(e)
  }

  predicate Reachable(ips: seq<string>, io: StartIo) {
    forall i :: 0 <= i < |ips| ==> io.dial(ips[i]).None?
  }

  /** `<videosPath>/<record id>_<start stamp>.mkv`. */
  function RecordingPath(videosPath: string, recordId: string, now: Instant): string {
    videosPath + "/" + recordId + "_" + FileStamp(now) + ".mkv"
  }

  /** `Start`. The source creates the row with the first address unguarded,
      so an empty list panics; a caller must pass at least one address. */
  function Start(s: State, ips: seq<string>, userId: int, io: StartIo): (r: Step<string>)
    requires |ips| > 0
    ensures r.state.pending == s.pending && r.state.videosPath == s.videosPath
    ensures !Reachable(ips, io) ==>
      r.err.Some? && r.err.value.Wrapped? && !Is(r.err.value, CameraIsNotAvailable) && r.state == s && r.effects == []
    // the row is created before the camera count is checked
    ensures Reachable(ips, io) ==> |r.effects| >= 1 && r.effects[0] == Persist(CreateRecord(userId, ips[0]))
    ensures Reachable(ips, io) && io.create.Ok? && |ips| > 2 ==>
      && r.err == Some(Wrapped(StartOp, Planner.CountError)) && r.state == s
      && r.effects == [Persist(CreateRecord(userId, ips[0]))]
    // a failed start-time write is not reported
    ensures r.err.None? <==> Reachable(ips, io) && io.create.Ok? && |ips| <= 2 && io.spawn.Ok?
    ensures r.err.None? ==>
      var id := io.create.value;
      var argv := RecordingMode(ips, RecordingPath(s.videosPath, id, io.now)).value;
      && r.out == id
      && r.state.commands == s.commands[id := Process(io.spawn.value, argv)]
      && r.effects == [Persist(CreateRecord(userId, ips[0])), Spawn(argv),
                       Persist(SaveStartTime(id, RecordingPath(s.videosPath, id, io.now)))]
    ensures r.err.Some? ==> r.state == s && r.out == ""
  {
    match DialAll(ips, io.dial)
    case Fail(e) => Step(s, "", Some(Wrapped(StartOp, e)), [])
    case Pass =>
      var created := [Persist(CreateRecord(userId, ips[0]))];
      match io.create
      case Err(e) => Step(s, "", Some(Wrapped(StartOp, e)), created)
      case Ok(id) =>
        var path := RecordingPath(s.videosPath, id, io.now);
        match RecordingMode(ips, path)
        case Err(e) => Step(s, "", Some(Wrapped(StartOp, e)), created)
        case Ok(argv) =>
          match io.spawn
          case Err(e) => Step(s, "", Some(Wrapped(StartOp, e)), created + [Spawn(argv)])
          case Ok(pid) =>
            var effects := created + [Spawn(argv), Persist(SaveStartTime(id, path))];
            Step(s.(commands := s.commands[id := Process(pid, argv)]), id, None, effects)
  }

  /** A failed create spawns nothing; a failed spawn after a successful create
      reports the spawn error, and nothing deletes the row just created. */
  lemma FailedStartKeepsRow(s: State, ips: seq<string>, userId: int, io: StartIo)
    requires |ips| > 0 && Reachable(ips, io)
    ensures io.create.Err? ==>
      var r := Start(s, ips, userId, io);
      r.err == Some(Wrapped(StartOp, io.create.error)) && r.effects == [Persist(CreateRecord(userId, ips[0]))]
    ensures io.create.Ok? && |ips| <= 2 && io.spawn.Err? ==>
      var r := Start(s, ips, userId, io);
      && r.err == Some(Wrapped(StartOp, io.spawn.error))
      && r.effects == [Persist(CreateRecord(userId, ips[0])),
                       Spawn(RecordingMode(ips, RecordingPath(s.videosPath, io.create.value, io.now)).value)]
  {
    assert DialAll(ips, io.dial).Pass?;
  }

  /** The outcomes of the external calls `Stop` makes. */
  datatype StopIo = StopIo(kill: Option<string>, writeFault: Option<Error>)

  /** `Stop`: kill the registered process and write the stop time. Unlike the
      newer service, a failed write comes back wrapped rather than as
      `ErrWriteToDB`; the registry entry is never removed. */
  function Stop(s: State, recordId: string, io: StopIo): (r: Step<()>)
    ensures r.state == s
    ensures recordId !in s.commands ==> r.err == Some(Wrapped(StartOp, RecordNotFound)) && r.effects == []
    ensures recordId in s.commands && io.kill.Some? ==>
      r.err == Some(Wrapped(StartOp, Failure(io.kill.value))) && r.effects == [Kill(recordId)]
    ensures recordId in s.commands && io.kill.None? ==>
      && r.effects == [Kill(recordId), Persist(SaveStop(recordId))]
      && (io.writeFault.Some? ==> r.err == Some(Wrapped(StartOp, io.writeFault.value)))
    ensures r.err.None? <==> recordId in s.commands && io.kill.None? && io.writeFault.None?
    ensures r.err.Some? ==> r.err.value.Wrapped? && r.err.value.op == StartOp
  {
    if recordId !in s.commands then Step(s, (), Some(Wrapped(StartOp, RecordNotFound)), [])
    else if io.kill.Some? then Step(s, (), Some(Wrapped(StartOp, Failure(io.kill.value))), [Kill(recordId)])
    else
      var effects := [Kill(recordId), Persist(SaveStop(recordId))];
      if io.writeFault.Some? then Step(s, (), Some(Wrapped(StartOp, io.writeFault.value)), effects)
      else Step(s, (), None, effects)
  }

  datatype ScheduleIo = ScheduleIo(now: Instant, length: Result<Duration, string>)

  /** `Schedule`, as in the newer service: a past start time is refused before
      the duration is parsed; otherwise a deferred start is armed. */
  function Schedule(s: State, startTime: Instant, ips: seq<string>, userId: int, io: ScheduleIo): (r: Step<()>)
    ensures r.err == Some(Wrapped(ScheduleOp, InvalidStartTime)) <==> Earlier(startTime, io.now)
    ensures !Earlier(startTime, io.now) && io.length.Err? ==> r.err == Some(Wrapped(ScheduleOp, Failure(io.length.error)))
    ensures r.err.Some? ==> r.state == s && r.effects == []
    ensures r.err.None? <==> !Earlier(startTime, io.now) && io.length.Ok?
    ensures r.err.None? ==>
      var armed := DeferredStart(ips, userId, Until(io.now, startTime), io.length.value);
      && armed.delay >= 0
      && r.state == s.(pending := s.pending + [armed])
      && r.effects == [Arm(armed)]
  {
    var delay := Until(io.now, startTime);
    SubSign(startTime, io.now);
    if delay < 0 then Step(s, (), Some(Wrapped(ScheduleOp, InvalidStartTime)), [])
    else
      match io.length
      case Err(msg) => Step(s, (), Some(Wrapped(ScheduleOp, Failure(msg))), [])
      case Ok(length) =>
        var armed := DeferredStart(ips, userId, delay, length);
        Step(s.(pending := s.pending + [armed]), (), None, [Arm(armed)])
  }

  datatype Firing = Ran(state: State, effects: seq<Effect>) | Panicked

  datatype FireIo = FireIo(start: StartIo, stop: StopIo)

  /** Timer `i` fires: a deferred start over no addresses panics; otherwise
      `Start` runs and the deferred stop is armed when it returned no error. */
  function Fire(s: State, i: nat, io: FireIo): (r: Firing)
    requires i < |s.pending|
    ensures s.pending[i].DeferredStart? ==> (r.Panicked? <==> |s.pending[i].cameras| == 0)
    ensures s.pending[i].DeferredStop? ==> r.Ran? && r.state == s.(pending := Without(s.pending, i))
    ensures r.Ran? ==> s.commands.Keys <= r.state.commands.Keys
    ensures r.Ran? && s.pending[i].DeferredStart? ==>
      var ips := s.pending[i].cameras;
      && (r.state.pending != Without(s.pending, i) <==>
            Reachable(ips, io.start) && io.start.create.Ok? && |ips| <= 2 && io.start.spawn.Ok?)
      && (r.state.pending != Without(s.pending, i) ==>
            r.state.pending == Without(s.pending, i) + [DeferredStop(io.start.create.value, s.pending[i].length)])
  {
    var rest := s.(pending := Without(s.pending, i));
    match s.pending[i]
    case DeferredStart(ips, userId, _, length) =>
      if |ips| == 0 then Panicked
      else
        var started := Start(rest, ips, userId, io.start);
        if started.err.Some? then Ran(started.state, started.effects)
        else
          var stop := DeferredStop(started.out, length);
          Ran(started.state.(pending := started.state.pending + [stop]), started.effects + [Arm(stop)])
    case DeferredStop(recordId, _) =>
      var stopped := Stop(rest, recordId, io.stop);
      Ran(stopped.state, stopped.effects)
  }

  /** In the legacy service every spawned scheduled recording gets its deferred
      stop, whether or not the start-time write succeeded, because that
      failure is swallowed. */
  lemma {:induction false} ScheduledSpawnArmsStop(s: State, i: nat, io: FireIo)
    requires i < |s.pending| && s.pending[i].DeferredStart? && |s.pending[i].cameras| > 0
    requires Reachable(s.pending[i].cameras, io.start) && io.start.create.Ok? && |s.pending[i].cameras| <= 2
    requires io.start.spawn.Ok?
    ensures var r := Fire(s, i, io);
      && r.Ran?
      && io.start.create.value in r.state.commands
      && DeferredStop(io.start.create.value, s.pending[i].length) in r.state.pending
  {
    var rest := s.(pending := Without(s.pending, i));
    var started := Start(rest, s.pending[i].cameras, s.pending[i].userId, io.start);
    assert started.err.None?;
    var stop := DeferredStop(io.start.create.value, s.pending[i].length);
    assert Fire(s, i, io).state.pending == Without(s.pending, i) + [stop];
  }

  /** Stop leaves the registry as it was, so stopping the same id again finds
      it and kills again, whatever became of the first stop. */
  lemma SecondStopKillsAgain(s: State, recordId: string, first: StopIo, second: StopIo)
    requires recordId in s.commands
    ensures var r := Stop(Stop(s, recordId, first).state, recordId, second);
      && |r.effects| >= 1 && r.effects[0] == Kill(recordId)
      && (second.kill.None? ==> r.effects == [Kill(recordId), Persist(SaveStop(recordId))])
  {
  }

  /** One request to the legacy service, or one timer firing. */
  datatype Call =
    | StartCall(cameraIps: seq<string>, userId: int, startIo: StartIo)
    | StopCall(recordId: string, stopIo: StopIo)
    | ScheduleCall(startTime: Instant, cameras: seq<string>, owner: int, scheduleIo: ScheduleIo)
    | FireCall(index: nat, fireIo: FireIo)

  /** The state after one call; `None` when the process dies. A request over
      no addresses panics inside its handler and is recovered, leaving the
      state as it was; the same panic in a timer goroutine, or a timer that is
      not armed, ends the process. */
  function Apply(s: State, c: Call): Option<State> {
    match c
    case StartCall(ips, userId, io) => if |ips| == 0 then Some(s) else Some(Start(s, ips, userId, io).state)
    case StopCall(id, io) => Some(Stop(s, id, io).state)
    case ScheduleCall(t, ips, userId, io) => Some(Schedule(s, t, ips, userId, io).state)
    case FireCall(i, io) =>
      if i >= |s.pending| then None
      else match Fire(s, i, io)
        case Panicked => None
        case Ran(t, _) => Some(t)
  }

  /** The state after a sequence of calls, if the process survives them. */
  function Run(s: State, calls: seq<Call>): Option<State>
    decreases |calls|
  {
    if |calls| == 0 then Some(s)
    else match Apply(s, calls[0])
      case None => None
      case Some(t) => Run(t, calls[1..])
  }

  lemma ApplyKeepsRegistry(s: State, c: Call)
    ensures Apply(s, c).Some? ==> s.commands.Keys <= Apply(s, c).value.commands.Keys
  {
  }

  /** No call ever unregisters a process in the legacy service either. */
  lemma {:induction false} RegistryNeverShrinks(s: State, calls: seq<Call>)
    ensures Run(s, calls).Some? ==> s.commands.Keys <= Run(s, calls).value.commands.Keys
    decreases |calls|
  {
    if |calls| > 0 && Apply(s, calls[0]).Some? {
      ApplyKeepsRegistry(s, calls[0]);
      RegistryNeverShrinks(Apply(s, calls[0]).value, calls[1..]);
    }
  }

  /** A registered recording stays stoppable: after any run of calls, a stop
      of its id still finds it and issues the kill. */
  lemma StartedStaysStoppable(s: State, calls: seq<Call>, recordId: string, io: StopIo)
    requires recordId in s.commands
    ensures Run(s, calls).Some? ==>
      var r := Stop(Run(s, calls).value, recordId, io);
      |r.effects| >= 1 && r.effects[0] == Kill(recordId)
  {
    RegistryNeverShrinks(s, calls);
  }
}

=== FILE: response.dfy ===
/** The JSON error envelope of the HTTP layer (`response` package): a plain
    error with a request id, and the human-readable summary of a failed
    request validation. */
module Response {
  import opened Text

  /** The envelope; both fields are omitted from the JSON when empty. */
  datatype Response = Response(error: string, requestId: string)

  /** One failed validation: the rule's tag and the offending field's name. */
  datatype FieldError = FieldError(tag: string, field: string)

  /** The rules the summary words differently; any other tag is `Other`. */
  datatype Rule = Required | Email | Password | UserType | Id | Other

  function RuleOf(tag: string): Rule {
    if tag == "required" then Required
    else if tag == "email" then Email
    else if tag == "password" then Password
    else if tag == "user_type" then UserType
    else if tag == "id" then Id
    else Other
  }

  /** What follows `field <name>` in the message for each rule. */
  function Complaint(rule: Rule): string {
    match rule
    case Required => " is a required field"
    case Email => " is not a valid email address"
    case Password => " does not meet password requirements"
    case UserType => " is not a valid user type"
    case Id => " is not a valid ID"
    case Other => " is not valid"
  }

  /** `Error`: the message and request id, carried as given. */
  function Error(msg: string, requestId: string): (r: Response)
    ensures r.error == msg && r.requestId == requestId
  {
    Response(msg, requestId)
  }

  /** The message for one failed validation. */
  function Message(e: FieldError): (m: string)
    ensures |m| > 6 + |e.field| && m[..6 + |e.field|] == "field " + e.field
    ensures m[6 + |e.field|..] == Complaint(RuleOf(e.tag))
  {
    var m := "field " + e.field + Complaint(RuleOf(e.tag));
    assert m[..6 + |e.field|] == "field " + e.field;
    m
  }

  function Messages(errs: seq<FieldError>): (ms: seq<string>)
    ensures |ms| == |errs| && forall i :: 0 <= i < |errs| ==> ms[i] == Message(errs[i])
  {
    seq(|errs|, i requires 0 <= i < |errs| => Message(errs[i]))
  }

  /** `ValidationError`: the messages joined with ", ", and no request id. */
  function ValidationError(errs: seq<FieldError>): (r: Response)
    ensures r.requestId == ""
    ensures r.error == "" <==> |errs| == 0
    ensures |errs| == 1 ==> r.error == Message(errs[0])
  {
    var ms := Messages(errs);
    JoinStartsWithFirst(ms, ", ");
    Response(Join(ms, ", "), "")
  }

  lemma JoinStartsWithFirst(parts: seq<string>, sep: string)
    ensures |parts| > 0 ==> |Join(parts, sep)| >= |parts[0]|
  {
  }

  /** One more failed validation adds ", " and its message at the end: the
      summary lists the failures in order. */
  lemma {:induction false} ValidationErrorAppend(errs: seq<FieldError>, e: FieldError)
    requires |errs| > 0
    ensures ValidationError(errs + [e]).error == ValidationError(errs).error + ", " + Message(e)
  {
    assert Messages(errs + [e]) == Messages(errs) + [Message(e)];
    JoinAppend(Messages(errs), Message(e), ", ");
  }

  /** The last two characters of a complaint. */
  function Ending(c: string): string
    requires |c| >= 2
  {
    c[|c| - 2..]
  }

  /** The six complaints end in six different pairs of characters. */
  lemma EndingsDiffer(x: Rule, y: Rule)
    requires Ending(Complaint(x)) == Ending(Complaint(y))
    ensures x == y
  {
    var ex, ey := Ending(Complaint(x)), Ending(Complaint(y));
    assert ex[0] == ey[0] && ex[1] == ey[1];
  }

  /** A validation message identifies its failure: equal messages come from
      the same field failing the same rule, whatever characters the field
      names hold. */
  lemma MessageIdentifiesError(a: FieldError, b: FieldError)
    requires Message(a) == Message(b)
    ensures a.field == b.field && RuleOf(a.tag) == RuleOf(b.tag)
  {
    var m := Message(a);
    var ca, cb := Complaint(RuleOf(a.tag)), Complaint(RuleOf(b.tag));
    assert m[6 + |a.field|..] == ca && m[6 + |b.field|..] == cb;
    assert Ending(ca) == m[|m| - 2..] == Ending(cb);
    EndingsDiffer(RuleOf(a.tag), RuleOf(b.tag));
    assert m[..6 + |a.field|][6..] == a.field;
    assert m[..6 + |b.field|][6..] == b.field;
  }
}

=== FILE: storage.dfy ===
/** The recordings table of the Postgres storage, as a map from record id to
    row, together with the cameras table the reads join against. Every query
    takes `fault`, the driver error (from executing the statement or reading
    the affected-row count) when there is one; the not-found rules are those
    the SQL encodes: an UPDATE or DELETE that touches no row, or a SELECT whose
    join finds nothing, is `ErrRecordNotFound`. */
module RecordingStorage {
  import opened Wrappers
  import opened Errs
  import opened Clock
  import opened Models

  /** A row of the recordings table; `stopTime` is NULL until the stop write. */
  datatype Row = Row(
    userId: int,
    cameraId: string,
    startTime: Instant,
    stopTime: Option<Instant>,
    filePath: string,
    isMoved: bool)

  /** The recordings table keyed by record id, and the cameras table as a map
      from camera id to camera address. */
  datatype Db = Db(rows: map<string, Row>, cameraIps: map<string, string>)

  const StartOp: string := "storage.postgres.recordings.Start"
  const StopOp: string := "storage.postgres.recordings.Stop"
  const MoveOp: string := "storage.postgres.recordings.Move"
  const DeleteOp: string := "storage.postgres.recordings.Delete"
  const RecordingOp: string := "storage.postgres.recordings.Recording"
  const CameraRecordingsOp: string := "storage.postgres.recordings.CameraRecording"

  /** The error the driver reports for an insert of an existing record id. */
  const DuplicateKey: Error := Failure("duplicate key value violates unique constraint")

  /** `Start`: insert a row with the recording's id, user, start time and path,
      the given camera id, no stop time and `is_moved = false`. */
  function Start(db: Db, rec: Recording, cameraId: string, fault: Option<Error>): (r: (Db, Outcome<Error>))
    ensures r.1.Pass? <==> fault.None? && rec.recordingId !in db.rows
    ensures r.1.Fail? ==> r.0 == db
    ensures r.1.Pass? ==>
      && r.0.rows == db.rows[rec.recordingId := Row(rec.userId, cameraId, rec.startTime, None, rec.filePath, false)]
      && r.0.cameraIps == db.cameraIps
  {
    if fault.Some? then (db, Fail(Wrapped(StartOp, fault.value)))
    else if rec.recordingId in db.rows then (db, Fail(Wrapped(StartOp, DuplicateKey)))
    else (db.(rows := db.rows[rec.recordingId := Row(rec.userId, cameraId, rec.startTime, None, rec.filePath, false)]), Pass)
  }

  /** `Stop`: set `stop_time` on the matching row only. */
  function Stop(db: Db, recordId: string, stopTime: Instant, fault: Option<Error>): (r: (Db, Outcome<Error>))
    ensures fault.None? && recordId !in db.rows ==> r.1 == Fail(Wrapped(StopOp, RecordNotFound))
    ensures r.1.Pass? <==> fault.None? && recordId in db.rows
    ensures r.1.Fail? ==> r.0 == db
    ensures r.1.Pass? ==>
      && r.0.rows.Keys == db.rows.Keys && r.0.cameraIps == db.cameraIps
      && r.0.rows[recordId] == db.rows[recordId].(stopTime := Some(stopTime))
      && forall id :: id in db.rows && id != recordId ==> r.0.rows[id] == db.rows[id]
  {
    if fault.Some? then (db, Fail(Wrapped(StopOp, fault.value)))
    else if recordId !in db.rows then (db, Fail(Wrapped(StopOp, RecordNotFound)))
    else (db.(rows := db.rows[recordId := db.rows[recordId].(stopTime := Some(stopTime))]), Pass)
  }

  /** `Move`: set `is_moved = true` on the matching row; nothing here ever
      writes false back. */
  function Move(db: Db, recordId: string, fault: Option<Error>): (r: (Db, Outcome<Error>))
    ensures fault.None? && recordId !in db.rows ==> r.1 == Fail(Wrapped(MoveOp, RecordNotFound))
    ensures r.1.Pass? <==> fault.None? && recordId in db.rows
    ensures r.1.Fail? ==> r.0 == db
    ensures r.1.Pass? ==>
      && r.0.rows.Keys == db.rows.Keys && r.0.cameraIps == db.cameraIps
      && r.0.rows[recordId] == db.rows[recordId].(isMoved := true)
      && forall id :: id in db.rows && id != recordId ==> r.0.rows[id] == db.rows[id]
  {
    if fault.Some? then (db, Fail(Wrapped(MoveOp, fault.value)))
    else if recordId !in db.rows then (db, Fail(Wrapped(MoveOp, RecordNotFound)))
    else (db.(rows := db.rows[recordId := db.rows[recordId].(isMoved := true)]), Pass)
  }

  /** `Delete`: remove the matching row. */
  function Delete(db: Db, recordId: string, fault: Option<Error>): (r: (Db, Outcome<Error>))
    ensures fault.None? && recordId !in db.rows ==> r.1 == Fail(Wrapped(DeleteOp, RecordNotFound))
    ensures r.1.Pass? <==> fault.None? && recordId in db.rows
    ensures r.1.Fail? ==> r.0 == db
    ensures r.1.Pass? ==>
      && r.0.rows.Keys == db.rows.Keys - {recordId} && r.0.cameraIps == db.cameraIps
      && forall id :: id in r.0.rows ==> r.0.rows[id] == db.rows[id]
  {
    if fault.Some? then (db, Fail(Wrapped(DeleteOp, fault.value)))
    else if recordId !in db.rows then (db, Fail(Wrapped(DeleteOp, RecordNotFound)))
    else (db.(rows := db.rows - {recordId}), Pass)
  }

  /** Whether the join of a row with its camera finds the row. */
  predicate Visible(db: Db, recordId: string) {
    recordId in db.rows && db.rows[recordId].cameraId in db.cameraIps
  }

  /** `Recording`: the row joined with its camera. A row whose camera is gone
      is as absent as a missing row; a NULL stop time reads as the zero time;
      the user id is not selected and stays zero. */
  function Recording(db: Db, recordId: string, fault: Option<Error>): (r: Result<Models.Recording, Error>)
    ensures fault.Some? ==> r.Err? && Is(r.error, fault.value)
    ensures fault.None? && !Visible(db, recordId) ==> r == Err(Wrapped(RecordingOp, RecordNotFound))
    ensures r.Ok? <==> fault.None? && Visible(db, recordId)
    ensures r.Ok? ==>
      var row := db.rows[recordId];
      && r.value.recordingId == recordId
      && r.value.cameraIp == db.cameraIps[row.cameraId]
      && r.value.filePath == row.filePath
      && r.value.userId == 0
      && r.value.startTime == row.startTime
      && r.value.stopTime == (if row.stopTime.Some? then row.stopTime.value else ZeroTime)
      && r.value.isMoved == row.isMoved
  {
    if fault.Some? then Err(Wrapped(RecordingOp, fault.value))
    else if !Visible(db, recordId) then Err(Wrapped(RecordingOp, RecordNotFound))
    else
      var row := db.rows[recordId];
      Ok(Models.Recording(recordId, db.cameraIps[row.cameraId], row.filePath, 0,
                          row.startTime, row.stopTime.GetOr(ZeroTime), row.isMoved))
  }

  /** A row just inserted reads back as the recording that was saved, joined
      with its camera's address, not yet stopped and not moved. */
  lemma StartThenRecording(db: Db, rec: Models.Recording, cameraId: string)
    requires rec.recordingId !in db.rows && cameraId in db.cameraIps
    ensures Recording(Start(db, rec, cameraId, None).0, rec.recordingId, None) ==
      Ok(Models.Recording(rec.recordingId, db.cameraIps[cameraId], rec.filePath, 0, rec.startTime, ZeroTime, false))
  {
  }

  /** After a stop write, the recording reads back with that stop time and
      otherwise as before. */
  lemma StopThenRecording(db: Db, recordId: string, stopTime: Instant)
    requires Visible(db, recordId)
    ensures var before := Recording(db, recordId, None);
      Recording(Stop(db, recordId, stopTime, None).0, recordId, None) == Ok(before.value.(stopTime := stopTime))
  {
  }

  /** The rows `CameraRecordings` selects: the camera's rows of this user that
      the join finds. */
  function Matching(db: Db, cameraId: string, userId: int): set<string> {
    set id | id in db.rows && db.rows[id].cameraId == cameraId && db.rows[id].userId == userId
                && cameraId in db.cameraIps
  }

  /** `order` lists every matching row once, in the order the database returns
      them (SQL gives no ORDER BY, so any order is possible). */
  predicate IsEnumeration(order: seq<string>, rows: set<string>) {
    && (forall i :: 0 <= i < |order| ==> order[i] in rows)
    && (forall id :: id in rows ==> id in order)
    && (forall i, j :: 0 <= i < j < |order| ==> order[i] != order[j])
  }

  /** The list entry for a row: no file path is selected. */
  function ListEntry(db: Db, recordId: string): Models.Recording
    requires Visible(db, recordId)
  {
    var row := db.rows[recordId];
    Models.Recording(recordId, db.cameraIps[row.cameraId], "", row.userId,
                     row.startTime, row.stopTime.GetOr(ZeroTime), row.isMoved)
  }

  /** `CameraRecordings`: `LIMIT limit OFFSET offset` over the matching rows.
      Postgres refuses a negative LIMIT or OFFSET; an empty page is an empty
      list, never `ErrRecordNotFound`. */
  function CameraRecordings(db: Db, cameraId: string, limit: int, offset: int, userId: int,
                            order: seq<string>, fault: Option<Error>): (r: Result<seq<Models.Recording>, Error>)
    requires IsEnumeration(order, Matching(db, cameraId, userId))
    ensures r.Ok? <==> fault.None? && limit >= 0 && offset >= 0
    ensures r.Ok? ==> |r.value| == (if offset >= |order| then 0 else if |order| - offset < limit then |order| - offset else limit)
    ensures r.Ok? ==> forall i :: 0 <= i < |r.value| ==>
      var id := r.value[i].recordingId;
      && id in Matching(db, cameraId, userId)
      && r.value[i] == ListEntry(db, id)
    ensures r.Ok? ==> forall i, j :: 0 <= i < j < |r.value| ==> r.value[i].recordingId != r.value[j].recordingId
    ensures fault.Some? ==> r.Err? && Is(r.error, fault.value)
    ensures fault.None? && r.Err? ==> !Is(r.error, RecordNotFound)
  {
    if fault.Some? then Err(Wrapped(CameraRecordingsOp, fault.value))
    else if limit < 0 then Err(Wrapped(CameraRecordingsOp, Failure("LIMIT must not be negative")))
    else if offset < 0 then Err(Wrapped(CameraRecordingsOp, Failure("OFFSET must not be negative")))
    else
      var page := if offset >= |order| then [] else order[offset..][..if |order| - offset < limit then |order| - offset else limit];
      Ok(seq(|page|, i requires 0 <= i < |page| => ListEntry(db, page[i])))
  }

  /** No query of this table writes `is_moved = false`: a moved row stays
      moved, or is gone, after any of the writes above. */
  lemma MovedIsMonotone(db: Db, recordId: string, rec: Models.Recording, cameraId: string,
                        t: Instant, fault: Option<Error>, id: string)
    requires id in db.rows && db.rows[id].isMoved
    ensures var d := Start(db, rec, cameraId, fault).0; id in d.rows && d.rows[id].isMoved
    ensures var d := Stop(db, recordId, t, fault).0; id in d.rows && d.rows[id].isMoved
    ensures var d := Move(db, recordId, fault).0; id in d.rows && d.rows[id].isMoved
    ensures var d := Delete(db, recordId, fault).0; id in d.rows ==> d.rows[id].isMoved
  {
  }
}

=== FILE: text.dfy ===
/** The string primitives the recorder borrows from Go's standard library:
    `strings.Join`, `strings.Split` with a one-character separator, and the
    zero-padded decimal printing done by `fmt` verbs and time layouts. */
module Text {

  /** `strings.Join`: the parts with `sep` between neighbours. */
  function Join(parts: seq<string>, sep: string): string {
    if |parts| == 0 then ""
    else if |parts| == 1 then parts[0]
    else parts[0] + sep + Join(parts[1..], sep)
  }

  /** Joining one more part appends the separator and that part. */
  lemma {:induction false} JoinAppend(parts: seq<string>, x: string, sep: string)
    requires |parts| > 0
    ensures Join(parts + [x], sep) == Join(parts, sep) + sep + x
    decreases |parts|
  {
    var whole := parts + [x];
    if |parts| == 1 {
      assert whole[1..] == [x];
    } else {
      assert whole[1..] == parts[1..] + [x];
      JoinAppend(parts[1..], x, sep);
    }
  }

  /** How many times `c` occurs in `s`. */
  function Occurrences(s: string, c: char): nat {
    if |s| == 0 then 0 else (if s[0] == c then 1 else 0) + Occurrences(s[1..], c)
  }

  /** `strings.Split(s, string(c))`: the maximal pieces between occurrences of
      `c`; never empty, and `Split("", c)` is `[""]`. */
  function Split(s: string, c: char): (r: seq<string>)
    ensures |r| == Occurrences(s, c) + 1
    ensures forall i :: 0 <= i < |r| ==> c !in r[i]
    decreases |s|
  {
    if |s| == 0 then [""]
    else
      var rest := Split(s[1..], c);
      if s[0] == c then [""] + rest
      else [[s[0]] + rest[0]] + rest[1..]
  }

  /** Splitting and joining again gives back the original string. */
  lemma {:induction false} JoinSplit(s: string, c: char)
    ensures Join(Split(s, c), [c]) == s
    decreases |s|
  {
    if |s| > 0 {
      var rest := Split(s[1..], c);
      JoinSplit(s[1..], c);
      if s[0] == c {
        assert Split(s, c) == [""] + rest;
        assert Join(Split(s, c), [c]) == "" + [c] + Join(rest, [c]);
        assert s == [s[0]] + s[1..];
      } else {
        var r := Split(s, c);
        assert r == [[s[0]] + rest[0]] + rest[1..];
        if |rest| == 1 {
          assert Join(r, [c]) == [s[0]] + rest[0];
          assert s == [s[0]] + s[1..];
        } else {
          assert r[1..] == rest[1..];
          assert Join(rest, [c]) == rest[0] + [c] + Join(rest[1..], [c]);
          assert Join(r, [c]) == [s[0]] + rest[0] + [c] + Join(rest[1..], [c]);
          assert s == [s[0]] + s[1..];
        }
      }
    }
  }

  /** A string free of the separator is a single piece. */
  lemma {:induction false} SplitNoSeparator(a: string, c: char)
    requires c !in a
    ensures Split(a, c) == [a]
    decreases |a|
  {
    if |a| > 0 {
      SplitNoSeparator(a[1..], c);
      assert [a[0]] + a[1..] == a;
    }
  }

  /** A separator-free prefix followed by the separator is the first piece. */
  lemma {:induction false} SplitAfterPrefix(a: string, c: char, b: string)
    requires c !in a
    ensures Split(a + [c] + b, c) == [a] + Split(b, c)
    decreases |a|
  {
    if |a| == 0 {
      assert a + [c] + b == [c] + b;
      assert ([c] + b)[1..] == b;
    } else {
      SplitAfterPrefix(a[1..], c, b);
      assert (a + [c] + b)[1..] == a[1..] + [c] + b;
      assert [a[0]] + a[1..] == a;
    }
  }

  /** Joining separator-free, non-empty lists of pieces and splitting again
      gives back exactly the pieces. */
  lemma {:induction false} SplitJoin(parts: seq<string>, c: char)
    requires |parts| >= 1
    requires forall i :: 0 <= i < |parts| ==> c !in parts[i]
    ensures Split(Join(parts, [c]), c) == parts
    decreases |parts|
  {
    if |parts| == 1 {
      SplitNoSeparator(parts[0], c);
    } else {
      SplitJoin(parts[1..], c);
      SplitAfterPrefix(parts[0], c, Join(parts[1..], [c]));
      assert [parts[0]] + parts[1..] == parts;
    }
  }

  /** Whatever the later pieces hold, the first piece of a joined list comes
      back first when it is free of the separator. */
  lemma SplitJoinHead(parts: seq<string>, c: char)
    requires |parts| >= 1 && c !in parts[0]
    ensures Split(Join(parts, [c]), c)[0] == parts[0]
  {
    if |parts| == 1 {
      SplitNoSeparator(parts[0], c);
    } else {
      SplitAfterPrefix(parts[0], c, Join(parts[1..], [c]));
    }
  }

  /** The character for a decimal digit. */
  function DigitChar(d: nat): (ch: char)
    requires d < 10
    ensures '0' <= ch <= '9'
  {
    (('0' as int) + d) as char
  }

  predicate IsDigits(s: string) {
    forall i :: 0 <= i < |s| ==> '0' <= s[i] <= '9'
  }

  /** The shortest decimal spelling of `n` (Go's `strconv.Itoa` on n >= 0). */
  function Decimal(n: nat): (r: string)
    ensures |r| >= 1 && IsDigits(r)
  {
    if n < 10 then [DigitChar(n)] else Decimal(n / 10) + [DigitChar(n % 10)]
  }

  function Pow10(k: nat): (r: nat)
    ensures r >= 1
  {
    if k == 0 then 1 else 10 * Pow10(k - 1)
  }

  /** The shortest spelling has at most `k` digits exactly when the number
      is below `10^k`. */
  lemma {:induction false} DecimalFits(n: nat, k: nat)
    requires k >= 1
    ensures |Decimal(n)| <= k <==> n < Pow10(k)
  {
    if n >= 10 {
      assert |Decimal(n)| == |Decimal(n / 10)| + 1;
      if k == 1 {
        assert Pow10(1) == 10;
      } else {
        DecimalFits(n / 10, k - 1);
        assert n / 10 < Pow10(k - 1) <==> n < 10 * Pow10(k - 1);
      }
    } else {
      assert Pow10(k) == 10 * Pow10(k - 1);
    }
  }

  /** The value of a string of decimal digits; leading zeros are allowed. */
  function ParseDecimal(s: string): nat
    requires IsDigits(s)
  {
    if |s| == 0 then 0
    else ParseDecimal(s[..|s| - 1]) * 10 + ((s[|s| - 1] as int) - ('0' as int))
  }

  lemma {:induction false} ParseDecimalOfDecimal(n: nat)
    ensures ParseDecimal(Decimal(n)) == n
  {
    if n >= 10 {
      var s := Decimal(n);
      assert s[..|s| - 1] == Decimal(n / 10);
      ParseDecimalOfDecimal(n / 10);
    }
  }

  lemma {:induction false} ParseDecimalLeadingZero(s: string)
    requires IsDigits(s)
    ensures IsDigits("0" + s) && ParseDecimal("0" + s) == ParseDecimal(s)
    decreases |s|
  {
    if |s| > 0 {
      var z := "0" + s;
      assert z[..|z| - 1] == "0" + s[..|s| - 1];
      ParseDecimalLeadingZero(s[..|s| - 1]);
    }
  }

  function Zeros(k: nat): (r: string)
    ensures |r| == k && IsDigits(r)
  {
    if k == 0 then "" else "0" + Zeros(k - 1)
  }

  /** `n` in decimal, left-padded with zeros to at least `width` digits. */
  function PadDecimal(n: nat, width: nat): (r: string)
    ensures IsDigits(r)
  {
    var d := Decimal(n);
    if |d| >= width then d else Zeros(width - |d|) + d
  }

  lemma {:induction false} ParseZerosPrefix(k: nat, s: string)
    requires IsDigits(s)
    ensures IsDigits(Zeros(k) + s) && ParseDecimal(Zeros(k) + s) == ParseDecimal(s)
  {
    if k > 0 {
      ParseZerosPrefix(k - 1, s);
      assert Zeros(k) + s == "0" + (Zeros(k - 1) + s);
      ParseDecimalLeadingZero(Zeros(k - 1) + s);
    } else {
      assert Zeros(k) + s == s;
    }
  }

  /** Padding never changes the value the digits spell, and never truncates. */
  lemma PadDecimalRoundTrip(n: nat, width: nat)
    ensures ParseDecimal(PadDecimal(n, width)) == n
    ensures |PadDecimal(n, width)| >= width
  {
    var d := Decimal(n);
    ParseDecimalOfDecimal(n);
    if |d| < width {
      var z := Zeros(width - |d|);
      ParseZerosPrefix(width - |d|, d);
      assert ParseDecimal(z + d) == n;
      assert |z + d| == width;
    }
  }

  /** Go's `%02d`: zero-padded to two characters, the sign counting towards
      the width, so a negative value is a minus sign and its digits. */
  function FmtTwoDigits(n: int): (r: string)
    ensures |r| >= 2
    ensures n >= 0 ==> IsDigits(r) && ParseDecimal(r) == n
    ensures 0 <= n < 100 ==> |r| == 2
    ensures n >= 100 ==> r == Decimal(n)
    ensures n < 0 ==> r[0] == '-' && IsDigits(r[1..]) && ParseDecimal(r[1..]) == -n
  {
    if n < 0 then
      ParseDecimalOfDecimal(-n);
      var r := "-" + Decimal(-n);
      assert r[1..] == Decimal(-n);
      r
    else
      PadDecimalRoundTrip(n, 2);
      DecimalFits(n, 2);
      PadDecimal(n, 2)
  }

  /** The number field of a Go time layout (`appendInt`): digits padded to
      `width`, a minus sign in front of a negative value. */
  function LayoutNumber(n: int, width: nat): (r: string)
    ensures n >= 0 ==> IsDigits(r) && |r| >= width && ParseDecimal(r) == n
    ensures width >= 1 && 0 <= n < Pow10(width) ==> |r| == width
    ensures n >= Pow10(width) ==> r == Decimal(n)
  {
    if n < 0 then "-" + PadDecimal(-n, width)
    else
      PadDecimalRoundTrip(n, width);
      DecimalFits(n, if width >= 1 then width else 1);
      PadDecimal(n, width)
  }

  /** The last `k` characters of `s` (Go's `s[len(s)-k:]`). */
  function Suffix(s: string, k: nat): (r: string)
    requires k <= |s|
    ensures |r| == k && s == s[..|s| - k] + r
  {
    s[|s| - k..]
  }
}

=== FILE: wrappers.dfy ===
/** Failure-compatible result types used across the model: Go's `(T, error)`
    pairs become `Result<T, E>`, and a bare `error` return becomes `Outcome<E>`. */
module Wrappers {

  datatype Option<+T> = None | Some(value: T) {
    function GetOr(default: T): T {
      match this
      case Some(v) => v
      case None => default
    }
  }

  datatype Result<+T, +E> = Ok(value: T) | Err(error: E) {
    predicate IsFailure() {
      Err?
    }

    function PropagateFailure<U>(): Result<U, E>
      requires Err?
    {
      Err(error)
    }

    function Extract(): T
      requires Ok?
    {
      value
    }
  }

  datatype Outcome<+E> = Pass | Fail(error: E) {
    predicate IsFailure() {
      Fail?
    }
  }
}
